=== FILE: README.md ===
# Crash reports and curve masks, modelled in Dafny

This project models two pieces of Blender's C++ source.

**The Windows crash report** (`source/blender/blenlib/intern/system_win32.cc`).
`BLI_system_backtrace_with_os_info` writes a report in this order:

1. It initialises the symbol engine and may swap the default symbols for a
   `blender.pdb` found beside the executable.
2. When there is an exception, it prints the chain of exception records.
3. It walks the primary stack. That is the exception's context when its
   address is set, and the reporting thread's own context otherwise.
4. Only when that walk resolved every frame, it samples every other thread of
   the process.
5. It always lists the loaded modules, with their file versions.

A report is modelled as a sequence of events. Each event is either a printed
line (a tag plus the values it prints) or an operating-system call whose order
and pairing matter. Examples of such calls are opening, suspending, querying,
resuming and closing a thread, and taking or closing a toolhelp snapshot. The
Win32 and dbghelp calls are oracles given as data:

- `StackWalk64` is the sequence of its answers for one context.
- The module-name, `SymFromAddr` and `SymGetLineFromAddr` lookups are maps from
  address to answer.
- Every snapshot entry carries the answers the system would give for it: the
  thread's context capture, the module's version resource and its symbol
  information.

A small state machine (`HandleProtocol`) states the handle discipline a report
must keep.

**Curve masks** (`source/blender/editors/curves/intern/curves_masks.cc`).
The model covers `curve_mask_from_points` and both `end_points` overloads. It
works over an offsets sequence, where curve `c` owns the points
`[o[c], o[c+1])`. Index masks are sets of indices.

Two behaviours of the code are worth noting, and the model follows them:

- Modules are listed whether or not the primary trace resolved
  (`system_win32.cc:392-397`).
- A module snapshot that cannot be taken prints only the section header
  (`system_win32.cc:243-246`).

## Model

| member | source | states |
|---|---|---|
| ExceptionCodes.DescribeClassifies | source/blender/blenlib/intern/system_win32.cc:21-67 | Each of the 20 listed codes gets the name its case gives it. Exactly the unlisted codes fall back to "UNKNOWN EXCEPTION". |
| ExceptionCodes.DescribeKnown | source/blender/blenlib/intern/system_win32.cc:23-63 | The case labels are distinct, and each table entry's code is described by that entry's own name. |
| Decimal.ParseToDecimal | source/blender/blenlib/intern/system_win32.cc:100-106 | Printing a field with `%d` and reading the digits back gives the field's value. |
| Decimal.ToDecimalLength | source/blender/blenlib/intern/system_win32.cc:100-106 | A value below 10^k prints in at most k digits. |
| ModuleVersion.ModuleVersionString | source/blender/blenlib/intern/system_win32.cc:82-113 | The version string is empty exactly when any of these holds: the version info is missing or unreadable, the root block is missing or empty, or the signature is not 0xfeef04bd. |
| ModuleVersion.VersionFields | source/blender/blenlib/intern/system_win32.cc:99-106 | A trusted block prints four dot-separated decimal fields. They are the high and low 16 bits of dwFileVersionMS and of dwFileVersionLS, and they reassemble both words. |
| ModuleVersion.VersionFitsBuffer | source/blender/blenlib/intern/system_win32.cc:100-106 | The version string is at most 23 characters, so the MAX_PATH buffer never truncates it. |
| StackWalk.Walk | source/blender/blenlib/intern/system_win32.cc:168-213 | No printed frame has a zero PC. A printed frame shows its own module, shows the symbol exactly when the symbol lookup succeeds, and shows file:line exactly when both lookups succeed. |
| StackWalk.WalkStops | source/blender/blenlib/intern/system_win32.cc:168-213 | With k the first step that stops the walk: frames 0..k-1 are printed with symbols. Frame k is printed as "Symbols not available" exactly when the walk fails. The walk succeeds exactly when it stopped on an unwinder failure, a zero PC or the end of the unwinder's answers. |
| StackWalk.WalkIgnoresLaterSteps | source/blender/blenlib/intern/system_win32.cc:168-213 | Unwinder answers after the stopping step are never consulted. |
| StackWalk.RunTraceLoop | source/blender/blenlib/intern/system_win32.cc:137-217 | The source's loop prints exactly the walk's frames and then the closing break. It returns true exactly when the walk resolved. |
| StackWalk.ForeignSampleProtocol | source/blender/blenlib/intern/system_win32.cc:219-237 | A foreign thread is suspended, queried and resumed before anything else, and is left resumed. A failed capture gives only the failure line and an unresolved result. A successful capture prints the walk of the captured context and resolves exactly when that walk does. |
| StackWalk.SelfSampleProtocol | source/blender/blenlib/intern/system_win32.cc:234-237 | The reporting thread captures its own context instead of being suspended. It prints the walk of that context, and its result is the walk's. |
| ExceptionRecords.BlockParameters | source/blender/blenlib/intern/system_win32.cc:118-129 | A record block shows its own record: the header ("Nested " as given), the classifier's description of its code (the generic one exactly when the code is unlisted), its address, the module owning that address, its flags and its parameter count, then exactly NumberParameters parameter lines indexed 0..N-1 in order. |
| ExceptionRecords.RecordLinesFlatten | source/blender/blenlib/intern/system_win32.cc:115-135 | Rendering a chain of K records gives the K block heads in chain order, followed by K closing breaks. |
| ExceptionRecords.RecordHeaders | source/blender/blenlib/intern/system_win32.cc:118-133 | A chain of K records prints K record headers: the first one plain, the other K-1 prefixed "Nested ". |
| Enumeration.VisitThreadsFacts | source/blender/blenlib/intern/system_win32.cc:298-307 | The loop opens exactly this process's threads other than the reporting one, in snapshot order. It never suspends the reporting thread. It closes every handle it opens. |
| Enumeration.VisitThreadsHeaders | source/blender/blenlib/intern/system_win32.cc:298-306 | The loop prints one "Thread : id" header per sampled thread, in snapshot order, and no other thread header. |
| Enumeration.VisitThreadsPrinted | source/blender/blenlib/intern/system_win32.cc:298-306 | The loop prints, for each sampled thread in snapshot order, its header and then its own sample: the failure line, or the walk of its captured context. |
| Enumeration.ThreadsSectionFacts | source/blender/blenlib/intern/system_win32.cc:280-309 | The whole thread section keeps the properties of the loop, and it closes the snapshot. The printed thread headers are exactly those of this process's other threads, so the reporting thread is never listed. Each header is followed by that thread's own sample lines. An invalid snapshot gives the single "Unable to retrieve threads list." line. |
| Enumeration.ModuleLineColumns | source/blender/blenlib/intern/system_win32.cc:258-275 | A module line shows its base and name. The version is empty unless trusted. The pdb columns appear exactly when the module info query succeeds, and "[unmatched]" appears exactly for a mismatched pdb. |
| Enumeration.OwnModules | source/blender/blenlib/intern/system_win32.cc:257-258 | A module is listed exactly when the snapshot holds it and it belongs to this process. |
| Enumeration.AsWrittenShape | source/blender/blenlib/intern/system_win32.cc:240-278 | The module section prints its header once, first. After that it prints only lines of the module section (module lines or the list error) and makes no thread call. |
| Enumeration.ModulesSectionShape | source/blender/blenlib/intern/system_win32.cc:240-278 | The same holds for the section with its snapshot closed after the listing. |
| Enumeration.ModulesSectionLines | source/blender/blenlib/intern/system_win32.cc:257-277 | A non-empty snapshot prints the header and then exactly this process's modules in snapshot order. |
| Enumeration.AsWrittenHandles | source/blender/blenlib/intern/system_win32.cc:243-277 | As written, the snapshot handle is closed only when Module32First fails. After a successful listing it stays open. |
| Enumeration.ModuleSnapshotLeaks | source/blender/blenlib/intern/system_win32.cc:251-277 | For a one-module snapshot, the section as written ends holding the module snapshot and never closes it. |
| Enumeration.ModulesSectionHandles | source/blender/blenlib/intern/system_win32.cc:240-278 | With the handle closed after the listing, every path closes the snapshot it opened. |
| SymbolLoading.LoadSymbols | source/blender/blenlib/intern/system_win32.cc:327-379 | Loaded private symbols are left alone. The default symbols are unloaded exactly when a pdb beside the executable is found, and then immediately replaced by that pdb, loaded with the low 32 bits of its size. A failed load is only logged. No thread or snapshot handle is touched. |
| CrashReport.PreambleFacts | source/blender/blenlib/intern/system_win32.cc:384-391 | The report starts by initialising the symbol engine and loading the symbol files, then prints only the exception records, and only when there is an exception. Before the primary trace it touches no handle and captures no context. |
| CrashReport.PrimaryStackChoice | source/blender/blenlib/intern/system_win32.cc:311-325 | The primary trace prints its header first. It captures the current context exactly when there is no exception or the exception address is zero. Its success flag is the walk's. |
| CrashReport.ReportThreadsGated | source/blender/blenlib/intern/system_win32.cc:392-396 | The "Threads:" header appears exactly when the primary walk resolved. Otherwise no thread is opened, suspended or closed. |
| CrashReport.ReportModulesLast | source/blender/blenlib/intern/system_win32.cc:397 | The module section ends the report. Its header occurs exactly once, where that section starts. |
| CrashReport.ReportExceptionHeaders | source/blender/blenlib/intern/system_win32.cc:389-391 | The report's record headers are one plain header and K-1 nested ones for a chain of K records. Without an exception there are none. |
| CrashReport.ReportHandles | source/blender/blenlib/intern/system_win32.cc:384-398 | From no handle held, every call keeps the handle discipline and the reporting thread is never suspended. The report ends holding the module snapshot exactly when that snapshot listed a module, and nothing else. |
| CrashReport.ReportCorrectedHandles | source/blender/blenlib/intern/system_win32.cc:384-398 | With the module snapshot closed after its listing, the report prints the same lines as the source's, keeps the same discipline and ends holding nothing. |
| CrashReport.ReportLayout | source/blender/blenlib/intern/system_win32.cc:384-398 | The printed lines are, in order: the records when there is an exception, the primary trace, the threads when the trace resolved, and the modules. |
| CurvesMasks.Interior | source/blender/editors/curves/intern/curves_masks.cc:51 | A point is in a curve's filled slice exactly when it lies at least amount_start after the curve's first point and at least amount_end before its end. A non-empty slice lies within the points. |
| CurvesMasks.AnySelected | source/blender/editors/curves/intern/curves_masks.cc:29-35 | The predicate is true exactly when some point of the curve is selected. |
| CurvesMasks.CurveMaskFromPoints | source/blender/editors/curves/intern/curves_masks.cc:18-37 | A curve is in the result exactly when it owns a point of the point mask. |
| CurvesMasks.SelectedPointsKeepTheirCurve | source/blender/editors/curves/intern/curves_masks.cc:18-37 | The curve owning any selected point is selected. |
| CurvesMasks.Fill | source/blender/editors/curves/intern/curves_masks.cc:50-52 | The fill sets exactly the slice's flags and leaves every other flag as it was. |
| CurvesMasks.EndPoints | source/blender/editors/curves/intern/curves_masks.cc:39-56 | A point is selected exactly when it lies in no masked curve's interior, or, when inverted, in one. |
| CurvesMasks.EndPointsAll | source/blender/editors/curves/intern/curves_masks.cc:58-65 | The overload is end_points over every curve. |
| CurvesMasks.EndPointsComplement | source/blender/editors/curves/intern/curves_masks.cc:48-52 | The plain and the inverted selections, for the same mask and amounts, are disjoint and together hold every point. |
| CurvesMasks.InvertedIsInteriorUnion | source/blender/editors/curves/intern/curves_masks.cc:48-52 | Inverted, the selection is exactly the union of the masked curves' trimmed ranges. |
| CurvesMasks.UnmaskedCurveKeepsPoints | source/blender/editors/curves/intern/curves_masks.cc:48-52 | Every point of an unmasked curve is selected when not inverted, and is not selected when inverted. |

## Left out

- The Win32, dbghelp and toolhelp calls are not modelled. Their answers are inputs, fixed for the duration of one report, so processes and threads changing concurrently while a report is written are not modelled either.
- The mapping from context registers to the first frame (`system_win32.cc:148-166`) is not modelled. It only decides which sequence of unwinder answers a walk gets.
- The `printf` formatting is not modelled: padding, `%p` and `%x` rendering, and the literal text of each line. Lines are tags carrying their values.
- The symbol-name buffer and the version buffer are not modelled (`MEM_callocN`/`MEM_freeN`), and neither is the 100-character symbol-name limit.
- Exception parameters are modelled as a sequence of length NumberParameters. The 15-entry `ExceptionInformation` array and the system's guarantee never to exceed it are not modelled.
- `bli_windows_get_module_name` (`system_win32.cc:69-80`) is only its answer per address, with an empty name when the lookup fails.
- `BLI_windows_handle_exception` (`system_win32.cc:400-418`) is not modelled. It writes only to stderr and falls outside the report.
- `SymbolLoading.LoadSymbols`: the separate failure points before the pdb load are folded into one absent pdb, because each leaves the symbols untouched. Those points are the executable path, the pdb's existence, the module handle and the file attributes.
- `StackWalk.Walk`: the unwinder is a finite sequence of answers, and running out of answers ends the walk as a resolved stop. The source's loop (`system_win32.cc:168`) has no frame cap, so an unwinder that never fails and never returns a zero PC would loop forever; such unwinders are not modelled.
- `OpenThread` is modelled as always yielding a handle. A failed open makes the context query fail, which the failed-capture case already covers.
- The per-curve fills of `end_points` run in parallel in the source (`foreach_index` with `GrainSize(512)`). They are modelled as a sequential loop. This gives the same result because the filled slices of distinct curves are disjoint (`InteriorsDisjoint`).
- `IndexRange`, `OffsetIndices` and `IndexMask` are not part of this model. `drop_front` and `drop_back` are modelled as clamping the range. Their amounts are assumed to require n >= 0; their definitions are outside the modelled files.
- The scheduling arguments are not modelled: the `grain_size` and `memory` parameters of `curve_mask_from_points` (`curves_masks.cc:20-21`) and the `GrainSize(512)` of `end_points` (`curves_masks.cc:49`). They affect only how the work is split and where the result is stored, not which indices are selected.
- The attribute and geometry classes (`CurvesGeometry`) are not part of this model. A geometry is represented by its offsets only.

## Findings

| source | as written | input that shows it | evidently intended | confidence | as-written member | corrected member |
|---|---|---|---|---|---|---|
| source/blender/blenlib/intern/system_win32.cc:243-277 | The module snapshot handle is closed only when `Module32First` fails (line 252). After a successful listing the function returns without `CloseHandle`. | Any snapshot listing at least one module. | Close the handle after the listing loop, as the thread section does at line 308. | high; not executed | Enumeration.ModuleSnapshotLeaks | Enumeration.ModulesSectionHandles |

The report (`CrashReport.Report`) keeps the code as written, and `CrashReport.ReportHandles` shows that it ends holding the module snapshot. `CrashReport.ReportCorrected` uses the corrected module section, and `CrashReport.ReportCorrectedHandles` proves that it prints the same lines and ends holding nothing.

=== FILE: crash_events.dfy ===
/**
 The vocabulary of a crash report: the lines written to the report file and
 the operating-system calls made while writing it. A report is a sequence of
 events; each line is kept as a tag plus the values it prints, without the
 `printf` padding and hexadecimal formatting.
 */
module CrashEvents {
  import opened Options

  /** What `SymFromAddr` fills in: the start address and name of the nearest symbol. */
  datatype Symbol = Symbol(address: nat, name: string)

  /** What `SymGetLineFromAddr` fills in. */
  datatype SourceLine = SourceLine(file: string, line: nat)

  /**
   One walked frame: its program counter, the module owning it, the symbol
   found for it (if any) and the source location found for it (if any).
   */
  datatype Frame = Frame(pc: nat, moduleName: string, symbol: Option<Symbol>, source: Option<SourceLine>)

  /** The debug-metadata columns of a module line (`LoadedPdbName` and the unmatched marker). */
  datatype PdbColumns = PdbColumns(pdbName: string, marker: string)

  datatype Line =
    | ExceptionRecordHeader(nested: bool)            // ["Nested "] "Exception Record:"
    | ExceptionCodeLine(description: string)
    | ExceptionAddressLine(address: nat)
    | ExceptionModuleLine(moduleName: string)
    | ExceptionFlagsLine(flags: nat)
    | ExceptionParameterCountLine(count: nat)
    | ExceptionParameterLine(index: nat, value: nat)
    | SectionBreak                                    // the "\n\n" closing a record or a trace
    | StackTraceHeader                                // "Stack trace:"
    | FrameLine(frame: Frame)
    | CannotGetThreadContext(error: nat)
    | ThreadsHeader                                   // "Threads:"
    | ThreadsUnavailable                              // "Unable to retrieve threads list."
    | ThreadHeader(id: nat)                           // "Thread : <id>"
    | ModulesHeader                                   // "Loaded Modules :"
    | ModuleListError                                 // " Error getting module list."
    | ModuleLine(base: nat, version: string, name: string, pdb: Option<PdbColumns>)

  datatype SnapshotKind = ThreadSnapshot | ModuleSnapshot

  /** Operating-system calls whose order and pairing the report is responsible for. */
  datatype Action =
    | SymInitialize
    | UnloadDefaultSymbols                            // SymUnloadModule64 on the executable
    | LoadPdb(size: nat)                              // SymLoadModule of the co-located blender.pdb
    | LogSymbolLoadError                              // the stderr message when that load fails
    | CaptureSelf                                     // RtlCaptureContext
    | OpenThread(id: nat)
    | SuspendThread(id: nat)
    | GetThreadContext(id: nat)
    | ResumeThread(id: nat)
    | CloseThread(id: nat)
    | OpenSnapshot(kind: SnapshotKind)                // a valid CreateToolhelp32Snapshot handle
    | CloseSnapshot(kind: SnapshotKind)

  datatype Event = Print(line: Line) | Call(action: Action)

  /** The outcome of a stack trace: what it emitted and whether every frame got a symbol. */
  datatype Trace = Trace(events: seq<Event>, resolved: bool)

  /** A toolhelp snapshot: an invalid handle, or the entries it lists in order. */
  datatype Snapshot<T> = Unavailable | Taken(entries: seq<T>)

  function Prints(lines: seq<Line>): (ev: seq<Event>)
    ensures |ev| == |lines|
    ensures forall i :: 0 <= i < |lines| ==> ev[i] == Print(lines[i])
  {
    if |lines| == 0 then [] else [Print(lines[0])] + Prints(lines[1..])
  }

  /** The report section a line belongs to; the closing break is shared by several. */
  datatype Part = ExceptionPart | TracePart | ThreadsPart | ModulesPart | BreakPart

  function PartOf(l: Line): Part {
    match l
    case ExceptionRecordHeader(_) => ExceptionPart
    case ExceptionCodeLine(_) => ExceptionPart
    case ExceptionAddressLine(_) => ExceptionPart
    case ExceptionModuleLine(_) => ExceptionPart
    case ExceptionFlagsLine(_) => ExceptionPart
    case ExceptionParameterCountLine(_) => ExceptionPart
    case ExceptionParameterLine(_, _) => ExceptionPart
    case SectionBreak => BreakPart
    case StackTraceHeader => TracePart
    case FrameLine(_) => TracePart
    case CannotGetThreadContext(_) => TracePart
    case ThreadsHeader => ThreadsPart
    case ThreadsUnavailable => ThreadsPart
    case ThreadHeader(_) => ThreadsPart
    case ModulesHeader => ModulesPart
    case ModuleListError => ModulesPart
    case ModuleLine(_, _, _, _) => ModulesPart
  }

  /** Every line printed by `ev` belongs to one of the parts in `parts`. */
  predicate LinesWithin(ev: seq<Event>, parts: set<Part>) {
    forall i :: 0 <= i < |ev| ==> ev[i].Print? ==> PartOf(ev[i].line) in parts
  }

  lemma PrintsWithin(lines: seq<Line>, parts: set<Part>)
    requires forall i :: 0 <= i < |lines| ==> PartOf(lines[i]) in parts
    ensures LinesWithin(Prints(lines), parts)
  {
  }

  /** Calls on foreign threads: opening, suspending, querying, resuming, closing. */
  predicate ThreadCall(e: Event) {
    e.Call? && (e.action.OpenThread? || e.action.SuspendThread? || e.action.GetThreadContext?
                || e.action.ResumeThread? || e.action.CloseThread?)
  }

  predicate IsSuspend(e: Event) {
    e.Call? && e.action.SuspendThread?
  }

  /** No thread `tid` is ever suspended by `ev`. */
  predicate NeverSuspends(ev: seq<Event>, tid: nat) {
    forall i :: 0 <= i < |ev| && IsSuspend(ev[i]) ==> ev[i].action.id != tid
  }

  lemma NeverSuspendsAppend(a: seq<Event>, b: seq<Event>, tid: nat)
    requires NeverSuspends(a, tid) && NeverSuspends(b, tid)
    ensures NeverSuspends(a + b, tid)
  {
    forall i | 0 <= i < |a + b| && IsSuspend((a + b)[i])
      ensures (a + b)[i].action.id != tid
    {
      if i >= |a| {
        assert (a + b)[i] == b[i - |a|];
      }
    }
  }

  lemma LinesWithinAppend(a: seq<Event>, b: seq<Event>, parts: set<Part>)
    requires LinesWithin(a, parts) && LinesWithin(b, parts)
    ensures LinesWithin(a + b, parts)
  {
    forall i | 0 <= i < |a + b| && (a + b)[i].Print?
      ensures PartOf((a + b)[i].line) in parts
    {
      if i >= |a| {
        assert (a + b)[i] == b[i - |a|];
      }
    }
  }

  predicate NoThreadCalls(ev: seq<Event>) {
    forall i :: 0 <= i < |ev| ==> !ThreadCall(ev[i])
  }

  /** The lines printed by `ev`, in order. */
  function PrintedLines(ev: seq<Event>): seq<Line> {
    if |ev| == 0 then [] else (if ev[0].Print? then [ev[0].line] else []) + PrintedLines(ev[1..])
  }

  lemma PrintedLinesCons(e: Event, ev: seq<Event>)
    ensures PrintedLines([e] + ev) == (if e.Print? then [e.line] else []) + PrintedLines(ev)
  {
    assert ([e] + ev)[1..] == ev;
  }

  lemma {:induction false} PrintedLinesAppend(a: seq<Event>, b: seq<Event>)
    ensures PrintedLines(a + b) == PrintedLines(a) + PrintedLines(b)
    decreases |a|
  {
    if |a| > 0 {
      assert (a + b)[0] == a[0] && (a + b)[1..] == a[1..] + b;
      PrintedLinesAppend(a[1..], b);
    } else {
      assert a + b == b;
    }
  }

  lemma {:induction false} PrintedLinesOfPrints(lines: seq<Line>)
    ensures PrintedLines(Prints(lines)) == lines
    decreases |lines|
  {
    if |lines| > 0 {
      assert Prints(lines)[1..] == Prints(lines[1..]);
      PrintedLinesOfPrints(lines[1..]);
    }
  }

  lemma NoThreadCallsAppend(a: seq<Event>, b: seq<Event>)
    requires NoThreadCalls(a) && NoThreadCalls(b)
    ensures NoThreadCalls(a + b)
  {
    forall i | 0 <= i < |a + b|
      ensures !ThreadCall((a + b)[i])
    {
      if i >= |a| {
        assert (a + b)[i] == b[i - |a|];
      }
    }
  }

  /** A line of a part outside `parts` is never printed by `ev`. */
  lemma NotPrintedOutside(ev: seq<Event>, parts: set<Part>, l: Line)
    requires LinesWithin(ev, parts) && PartOf(l) !in parts
    ensures Print(l) !in ev
  {
  }

  /** Every printed line of `ev` belongs to one of the parts `ev` is within. */
  lemma {:induction false} PrintedLinesWithin(ev: seq<Event>, parts: set<Part>)
    requires LinesWithin(ev, parts)
    ensures forall i :: 0 <= i < |PrintedLines(ev)| ==> PartOf(PrintedLines(ev)[i]) in parts
    decreases |ev|
  {
    if |ev| > 0 {
      var rest := ev[1..];
      assert LinesWithin(rest, parts) by {
        forall i | 0 <= i < |rest| && rest[i].Print?
          ensures PartOf(rest[i].line) in parts
        {
          assert rest[i] == ev[i + 1];
        }
      }
      PrintedLinesWithin(rest, parts);
      var head: seq<Line> := if ev[0].Print? then [ev[0].line] else [];
      assert PrintedLines(ev) == head + PrintedLines(rest);
      forall i | 0 <= i < |PrintedLines(ev)|
        ensures PartOf(PrintedLines(ev)[i]) in parts
      {
        if i >= |head| {
          assert PrintedLines(ev)[i] == PrintedLines(rest)[i - |head|];
        }
      }
    }
  }

  /** A sequence of calls prints nothing. */
  lemma {:induction false} PrintedLinesOfCalls(ev: seq<Event>)
    requires forall i :: 0 <= i < |ev| ==> ev[i].Call?
    ensures PrintedLines(ev) == []
    decreases |ev|
  {
    if |ev| > 0 {
      PrintedLinesOfCalls(ev[1..]);
    }
  }
}

=== FILE: crash_report.dfy ===
/**
 The whole crash report (`BLI_system_backtrace_with_os_info`): symbol
 initialisation and loading, the exception record chain when there is an
 exception, the primary stack trace, the other threads when that trace
 resolved, and the loaded modules last.
 */
module CrashReport {
  import opened Options
  import opened CrashEvents
  import opened HandleProtocol
  import opened StackWalk
  import opened ExceptionRecords
  import opened Enumeration
  import opened SymbolLoading

  /** The `EXCEPTION_POINTERS` a report is given: the record chain and the unwind steps from its context record. */
  datatype ExceptionInfo = ExceptionInfo(record: ExceptionRecord, contextSteps: seq<Step>)

  /** Everything the report asks of the operating system, answered in advance. */
  datatype Process = Process(
    me: Identity,
    sym: Symbolizer,
    symbolFiles: SymbolFiles,
    selfSteps: seq<Step>,
    threads: Snapshot<ThreadEntry>,
    modules: Snapshot<ModuleEntry>)

  function ExceptionSection(exc: Option<ExceptionInfo>, sym: Symbolizer): seq<Event> {
    match exc
    case None => []
    case Some(x) => Prints(RecordLines(x.record, false, sym))
  }

  /** An exception whose address is set: its context record is walked instead of the current stack. */
  predicate WalksExceptionContext(exc: Option<ExceptionInfo>) {
    exc.Some? && exc.value.record.address != 0
  }

  /** The unwind steps of whichever stack the primary trace walks. */
  function PrimarySteps(p: Process, exc: Option<ExceptionInfo>): seq<Step> {
    if WalksExceptionContext(exc) then exc.value.contextSteps else p.selfSteps
  }

  /** `bli_windows_system_backtrace_stack` */
  function PrimaryStack(p: Process, exc: Option<ExceptionInfo>): Trace {
    var t := if WalksExceptionContext(exc) then RunTrace(exc.value.contextSteps, p.sym)
             else SampleThread(CurrentThread(p.selfSteps), p.sym);
    Trace([Print(StackTraceHeader)] + t.events, t.resolved)
  }

  /** What happens before the primary trace: symbol set-up and the exception section. */
  function Preamble(p: Process, exc: Option<ExceptionInfo>): seq<Event> {
    [Call(SymInitialize)] + LoadSymbols(p.symbolFiles) + ExceptionSection(exc, p.sym)
  }

  /** The thread section, present only after a resolved primary trace. */
  function GatedThreads(p: Process, resolved: bool): seq<Event> {
    if resolved then ThreadsSection(p.me, p.threads, p.sym) else []
  }

  /** The report as the source writes it, with the module section that leaves its snapshot open. */
  function Report(p: Process, exc: Option<ExceptionInfo>): seq<Event> {
    var primary := PrimaryStack(p, exc);
    Preamble(p, exc) + primary.events + GatedThreads(p, primary.resolved) + ModulesSectionAsWritten(p.me, p.modules)
  }

  /** The report with the module snapshot closed after its listing. */
  function ReportCorrected(p: Process, exc: Option<ExceptionInfo>): seq<Event> {
    var primary := PrimaryStack(p, exc);
    Preamble(p, exc) + primary.events + GatedThreads(p, primary.resolved) + ModulesSection(p.me, p.modules)
  }

  lemma ExceptionSectionFacts(exc: Option<ExceptionInfo>, sym: Symbolizer)
    ensures var ev := ExceptionSection(exc, sym);
            && (forall i :: 0 <= i < |ev| ==> ev[i].Print?)
            && LinesWithin(ev, {ExceptionPart, BreakPart})
            && PrintedLines(ev) == (if exc.Some? then RecordLines(exc.value.record, false, sym) else [])
  {
    if exc.Some? {
      var lines := RecordLines(exc.value.record, false, sym);
      RecordLinesParts(exc.value.record, false, sym);
      PrintsWithin(lines, {ExceptionPart, BreakPart});
      PrintedLinesOfPrints(lines);
    }
  }

  /**
   Before the primary trace the report initialises the symbol engine and
   loads symbols, then prints only the exception section; it neither touches
   a handle nor captures a context.
   */
  lemma PreambleFacts(p: Process, exc: Option<ExceptionInfo>, h: Handles)
    requires h.suspended.None?
    ensures var ev, setup := Preamble(p, exc), [Call(SymInitialize)] + LoadSymbols(p.symbolFiles);
            && |setup| <= |ev| && ev[..|setup|] == setup
            && LinesWithin(ev, {ExceptionPart, BreakPart})
            && NoThreadCalls(ev)
            && Track(ev, h) == Some(h)
            && Call(CaptureSelf) !in ev
            && PrintedLines(ev) == (if exc.Some? then RecordLines(exc.value.record, false, p.sym) else [])
  {
    var setup := [Call(SymInitialize)] + LoadSymbols(p.symbolFiles);
    var es := ExceptionSection(exc, p.sym);
    var ev := Preamble(p, exc);
    assert ev == setup + es;
    ExceptionSectionFacts(exc, p.sym);
    assert forall i :: 0 <= i < |setup| ==> setup[i].Call? && Inert(setup[i]) && setup[i] != Call(CaptureSelf) by {
      forall i | 0 <= i < |setup|
        ensures setup[i].Call? && Inert(setup[i]) && setup[i] != Call(CaptureSelf)
      {
      }
    }
    LinesWithinAppend(setup, es, {ExceptionPart, BreakPart});
    assert forall i :: 0 <= i < |ev| ==> Inert(ev[i]) && ev[i] != Call(CaptureSelf);
    TrackInert(ev, h);
    PrintedLinesOfCalls(setup);
    PrintedLinesAppend(setup, es);
  }

  /**
   The primary trace walks the exception's context when the exception
   address is set and otherwise captures and walks the current thread; its
   success flag is the walk's.
   */
  lemma PrimaryStackChoice(p: Process, exc: Option<ExceptionInfo>)
    ensures var t := PrimaryStack(p, exc);
            && t.events[0] == Print(StackTraceHeader)
            && t.resolved == Walk(PrimarySteps(p, exc), p.sym).resolved
            && (Call(CaptureSelf) in t.events <==> !WalksExceptionContext(exc))
            && PrintedLines(t.events) == [StackTraceHeader] + TraceLines(Walk(PrimarySteps(p, exc), p.sym))
  {
    var steps := PrimarySteps(p, exc);
    var t := PrimaryStack(p, exc);
    var mid: seq<Event> := if WalksExceptionContext(exc) then [] else [Call(CaptureSelf)];
    assert t.events == [Print(StackTraceHeader)] + mid + Prints(TraceLines(Walk(steps, p.sym)))
           && t.resolved == Walk(steps, p.sym).resolved;
    HeadedPrints(StackTraceHeader, mid, TraceLines(Walk(steps, p.sym)));
  }

  /** A header, some calls, then printed lines: the calls are the only calls and the lines are what is printed. */
  lemma HeadedPrints(head: Line, mid: seq<Event>, lines: seq<Line>)
    requires forall i :: 0 <= i < |mid| ==> mid[i].Call?
    ensures var ev := [Print(head)] + mid + Prints(lines);
            && ev[0] == Print(head)
            && PrintedLines(ev) == [head] + lines
            && forall a :: Call(a) in ev <==> Call(a) in mid
  {
    PrintedLinesAppend([Print(head)] + mid, Prints(lines));
    PrintedLinesAppend([Print(head)], mid);
    PrintedLinesOfCalls(mid);
    PrintedLinesOfPrints(lines);
    HeadedCalls(head, mid, lines);
  }

  lemma HeadedCalls(head: Line, mid: seq<Event>, lines: seq<Line>)
    ensures forall a :: Call(a) in [Print(head)] + mid + Prints(lines) <==> Call(a) in mid
  {
    var ev := [Print(head)] + mid + Prints(lines);
    forall a | Call(a) in ev
      ensures Call(a) in mid
    {
      var k :| 0 <= k < |ev| && ev[k] == Call(a);
      assert 0 < k <= |mid|;
      assert mid[k - 1] == ev[k];
    }
  }

  /** The primary trace prints only trace lines and leaves every handle as it found it. */
  lemma PrimaryStackQuiet(p: Process, exc: Option<ExceptionInfo>, h: Handles)
    requires h.suspended.None?
    ensures var ev := PrimaryStack(p, exc).events;
            && NoThreadCalls(ev)
            && LinesWithin(ev, {TracePart, BreakPart})
            && Track(ev, h) == Some(h)
  {
    var steps := PrimarySteps(p, exc);
    var trace := RunTrace(steps, p.sym).events;
    var head := if WalksExceptionContext(exc) then [Print(StackTraceHeader)]
                else [Print(StackTraceHeader), Call(CaptureSelf)];
    assert PrimaryStack(p, exc).events == head + trace;
    assert LinesWithin(head, {TracePart, BreakPart}) && NoThreadCalls(head);
    assert Track(head, h) == Some(h) by {
      TrackInert(head, h);
    }
    assert LinesWithin(trace, {TracePart, BreakPart}) && NoThreadCalls(trace) by {
      TraceLinesWithin(steps, p.sym);
    }
    TrackTrace(steps, p.sym, h);
    LinesWithinAppend(head, trace, {TracePart, BreakPart});
    NoThreadCallsAppend(head, trace);
    TrackAppend(head, trace, h);
  }

  lemma GatedThreadsFacts(p: Process, resolved: bool, h: Handles)
    requires h.openThread.None? && h.suspended.None? && ThreadSnapshot !in h.snapshots
    ensures var ev := GatedThreads(p, resolved);
            && (Print(ThreadsHeader) in ev <==> resolved)
            && (!resolved ==> ev == [])
            && Track(ev, h) == Some(h)
            && NeverSuspends(ev, p.me.tid)
            && LinesWithin(ev, {TracePart, ThreadsPart, BreakPart})
  {
    if resolved {
      ThreadsSectionFacts(p.me, p.threads, p.sym, h);
    }
  }

  /** Both reports are their four parts in order; they differ only in the module section. */
  lemma ReportParts(p: Process, exc: Option<ExceptionInfo>)
    ensures var primary := PrimaryStack(p, exc);
            var before := Preamble(p, exc) + primary.events + GatedThreads(p, primary.resolved);
            && Report(p, exc) == before + ModulesSectionAsWritten(p.me, p.modules)
            && ReportCorrected(p, exc) == before + ModulesSection(p.me, p.modules)
  {
  }

  lemma ThreadsHeaderPlacement(a: seq<Event>, b: seq<Event>, g: seq<Event>, m: seq<Event>, resolved: bool)
    requires LinesWithin(a, {ExceptionPart, BreakPart}) && LinesWithin(b, {TracePart, BreakPart})
    requires LinesWithin(m, {ModulesPart})
    requires Print(ThreadsHeader) in g <==> resolved
    ensures Print(ThreadsHeader) in a + b + g + m <==> resolved
  {
    NotPrintedOutside(a, {ExceptionPart, BreakPart}, ThreadsHeader);
    NotPrintedOutside(b, {TracePart, BreakPart}, ThreadsHeader);
    NotPrintedOutside(m, {ModulesPart}, ThreadsHeader);
  }

  lemma NoThreadCallsOfParts(a: seq<Event>, b: seq<Event>, g: seq<Event>, m: seq<Event>)
    requires NoThreadCalls(a) && NoThreadCalls(b) && NoThreadCalls(g) && NoThreadCalls(m)
    ensures NoThreadCalls(a + b + g + m)
  {
    NoThreadCallsAppend(a, b);
    NoThreadCallsAppend(a + b, g);
    NoThreadCallsAppend(a + b + g, m);
  }

  /**
   The thread section is printed exactly when the primary trace resolved;
   otherwise no thread is opened, suspended, read, resumed or closed.
   */
  lemma ReportThreadsGated(p: Process, exc: Option<ExceptionInfo>)
    ensures var resolved := Walk(PrimarySteps(p, exc), p.sym).resolved;
            && (Print(ThreadsHeader) in Report(p, exc) <==> resolved)
            && (!resolved ==> NoThreadCalls(Report(p, exc)))
  {
    var primary := PrimaryStack(p, exc);
    var a, b, g, m := Preamble(p, exc), primary.events, GatedThreads(p, primary.resolved), ModulesSectionAsWritten(p.me, p.modules);
    ReportParts(p, exc);
    assert LinesWithin(a, {ExceptionPart, BreakPart}) && NoThreadCalls(a) by {
      PreambleFacts(p, exc, Idle);
    }
    assert LinesWithin(b, {TracePart, BreakPart}) && NoThreadCalls(b) by {
      PrimaryStackQuiet(p, exc, Idle);
    }
    assert primary.resolved == Walk(PrimarySteps(p, exc), p.sym).resolved by {
      PrimaryStackChoice(p, exc);
    }
    assert (Print(ThreadsHeader) in g <==> primary.resolved) && (!primary.resolved ==> g == []) by {
      GatedThreadsFacts(p, primary.resolved, Idle);
    }
    assert LinesWithin(m, {ModulesPart}) && NoThreadCalls(m) by {
      AsWrittenShape(p.me, p.modules);
    }
    ThreadsHeaderPlacement(a, b, g, m, primary.resolved);
    if !primary.resolved {
      NoThreadCallsOfParts(a, b, g, m);
    }
  }

  /** Everything before the module section. */
  lemma BeforeModulesWithin(p: Process, exc: Option<ExceptionInfo>)
    ensures var primary := PrimaryStack(p, exc);
            LinesWithin(Preamble(p, exc) + primary.events + GatedThreads(p, primary.resolved),
                        {ExceptionPart, TracePart, ThreadsPart, BreakPart})
  {
    var primary := PrimaryStack(p, exc);
    var a, b, g := Preamble(p, exc), primary.events, GatedThreads(p, primary.resolved);
    var parts := {ExceptionPart, TracePart, ThreadsPart, BreakPart};
    assert LinesWithin(a, parts) by {
      PreambleFacts(p, exc, Idle);
    }
    assert LinesWithin(b, parts) by {
      PrimaryStackQuiet(p, exc, Idle);
    }
    assert LinesWithin(g, parts) by {
      GatedThreadsFacts(p, primary.resolved, Idle);
    }
    LinesWithinAppend(a, b, parts);
    LinesWithinAppend(a + b, g, parts);
  }

  /** The module section always closes the report, and its header is printed once. */
  lemma ReportModulesLast(p: Process, exc: Option<ExceptionInfo>)
    ensures var r, m := Report(p, exc), ModulesSectionAsWritten(p.me, p.modules);
            && |m| <= |r|
            && r[|r| - |m|..] == m
            && forall i :: 0 <= i < |r| ==> (r[i] == Print(ModulesHeader) <==> i == |r| - |m|)
  {
    var primary := PrimaryStack(p, exc);
    var before := Preamble(p, exc) + primary.events + GatedThreads(p, primary.resolved);
    var m := ModulesSectionAsWritten(p.me, p.modules);
    ReportParts(p, exc);
    BeforeModulesWithin(p, exc);
    AsWrittenShape(p.me, p.modules);
    ModulesAfter(before, m);
  }

  /** A module section after lines of other parts: its header occurs once, where the section starts. */
  lemma ModulesAfter(before: seq<Event>, m: seq<Event>)
    requires LinesWithin(before, {ExceptionPart, TracePart, ThreadsPart, BreakPart})
    requires |m| > 0 && m[0] == Print(ModulesHeader) && Print(ModulesHeader) !in m[1..]
    ensures var r := before + m;
            && r[|r| - |m|..] == m
            && forall i :: 0 <= i < |r| ==> (r[i] == Print(ModulesHeader) <==> i == |r| - |m|)
  {
    NotPrintedOutside(before, {ExceptionPart, TracePart, ThreadsPart, BreakPart}, ModulesHeader);
    HeaderOnlyAt(before, m, Print(ModulesHeader));
  }

  /** An event absent from `before` and from `m` after its first place occurs only there. */
  lemma HeaderOnlyAt(before: seq<Event>, m: seq<Event>, e: Event)
    requires |m| > 0 && m[0] == e && e !in before && e !in m[1..]
    ensures var r := before + m;
            && r[|r| - |m|..] == m
            && forall i :: 0 <= i < |r| ==> (r[i] == e <==> i == |r| - |m|)
  {
    var r := before + m;
    forall i | 0 <= i < |r|
      ensures r[i] == e <==> i == |r| - |m|
    {
      if i < |before| {
        assert r[i] == before[i];
      } else if i > |before| {
        assert r[i] == m[1..][i - |before| - 1];
      }
    }
  }

  /** Lines outside the exception part hold no record header. */
  lemma NoHeaderFlagsOutside(ev: seq<Event>, parts: set<Part>)
    requires LinesWithin(ev, parts) && ExceptionPart !in parts
    ensures HeaderFlags(PrintedLines(ev)) == []
  {
    PrintedLinesWithin(ev, parts);
    HeaderFlagsNone(PrintedLines(ev));
  }

  lemma PrintedLinesOfParts(a: seq<Event>, b: seq<Event>, g: seq<Event>, m: seq<Event>)
    ensures PrintedLines(a + b + g + m) == PrintedLines(a) + PrintedLines(b) + PrintedLines(g) + PrintedLines(m)
  {
    PrintedLinesAppend(a, b);
    PrintedLinesAppend(a + b, g);
    PrintedLinesAppend(a + b + g, m);
  }

  lemma HeaderFlagsOfParts(a: seq<Event>, b: seq<Event>, g: seq<Event>, m: seq<Event>)
    requires LinesWithin(b, {TracePart, BreakPart})
    requires LinesWithin(g, {TracePart, ThreadsPart, BreakPart})
    requires LinesWithin(m, {ModulesPart})
    ensures HeaderFlags(PrintedLines(a + b + g + m)) == HeaderFlags(PrintedLines(a))
  {
    var parts := {TracePart, ThreadsPart, BreakPart, ModulesPart};
    LinesWithinAppend(b, g, parts);
    LinesWithinAppend(b + g, m, parts);
    NoHeaderFlagsOutside(b + g + m, parts);
    assert a + b + g + m == a + (b + g + m);
    PrintedLinesAppend(a, b + g + m);
    HeaderFlagsAppend(PrintedLines(a), PrintedLines(b + g + m));
  }

  /**
   The report holds one "Exception Record:" block per record of the chain,
   only the first not marked nested, and none without an exception.
   */
  lemma ReportExceptionHeaders(p: Process, exc: Option<ExceptionInfo>)
    ensures HeaderFlags(PrintedLines(Report(p, exc)))
            == if exc.Some? then [false] + seq(|Chain(exc.value.record)| - 1, _ => true) else []
  {
    var primary := PrimaryStack(p, exc);
    var a, b, g, m := Preamble(p, exc), primary.events, GatedThreads(p, primary.resolved), ModulesSectionAsWritten(p.me, p.modules);
    ReportParts(p, exc);
    assert LinesWithin(b, {TracePart, BreakPart}) by {
      PrimaryStackQuiet(p, exc, Idle);
    }
    assert LinesWithin(g, {TracePart, ThreadsPart, BreakPart}) by {
      GatedThreadsFacts(p, primary.resolved, Idle);
    }
    assert LinesWithin(m, {ModulesPart}) by {
      AsWrittenShape(p.me, p.modules);
    }
    HeaderFlagsOfParts(a, b, g, m);
    assert PrintedLines(a) == if exc.Some? then RecordLines(exc.value.record, false, p.sym) else [] by {
      PreambleFacts(p, exc, Idle);
    }
    if exc.Some? {
      RecordHeaders(exc.value.record, false, p.sym);
    } else {
      HeaderFlagsNone([]);
    }
  }

  lemma TrackParts(a: seq<Event>, b: seq<Event>, g: seq<Event>, m: seq<Event>, h: Handles, last: Handles)
    requires Track(a, h) == Some(h) && Track(b, h) == Some(h) && Track(g, h) == Some(h)
    requires Track(m, h) == Some(last)
    ensures Track(a + b + g + m, h) == Some(last)
  {
    TrackAppend(a, b, h);
    TrackAppend(a + b, g, h);
    TrackAppend(a + b + g, m, h);
  }

  lemma NeverSuspendsParts(a: seq<Event>, b: seq<Event>, g: seq<Event>, m: seq<Event>, tid: nat)
    requires NoThreadCalls(a) && NoThreadCalls(b) && NeverSuspends(g, tid) && NoThreadCalls(m)
    ensures NeverSuspends(a + b + g + m, tid)
  {
    NeverSuspendsAppend(a, b, tid);
    NeverSuspendsAppend(a + b, g, tid);
    NeverSuspendsAppend(a + b + g, m, tid);
  }

  /**
   Starting with no handle held, the report keeps the handle discipline
   throughout and never suspends the reporting thread, but it ends still
   holding the module snapshot whenever that snapshot listed a module.
   */
  lemma ReportHandles(p: Process, exc: Option<ExceptionInfo>)
    ensures Track(Report(p, exc), Idle) == Some(Handles(None, None, ModuleSnapshotLeftOpen(p.modules)))
    ensures NeverSuspends(Report(p, exc), p.me.tid)
  {
    var primary := PrimaryStack(p, exc);
    var a, b, g, m := Preamble(p, exc), primary.events, GatedThreads(p, primary.resolved), ModulesSectionAsWritten(p.me, p.modules);
    var last := Handles(None, None, ModuleSnapshotLeftOpen(p.modules));
    ReportParts(p, exc);
    BeforeModulesQuiet(p, exc);
    assert NoThreadCalls(m) by {
      AsWrittenShape(p.me, p.modules);
    }
    assert Track(m, Idle) == Some(last) by {
      AsWrittenHandles(p.me, p.modules, Idle);
      assert Idle.(snapshots := Idle.snapshots + ModuleSnapshotLeftOpen(p.modules)) == last;
    }
    TrackParts(a, b, g, m, Idle, last);
    NeverSuspendsParts(a, b, g, m, p.me.tid);
  }

  /** The first three parts of the report leave every handle as they found it. */
  lemma BeforeModulesQuiet(p: Process, exc: Option<ExceptionInfo>)
    ensures var primary := PrimaryStack(p, exc);
            var a, b, g := Preamble(p, exc), primary.events, GatedThreads(p, primary.resolved);
            && Track(a, Idle) == Some(Idle) && NoThreadCalls(a)
            && Track(b, Idle) == Some(Idle) && NoThreadCalls(b)
            && Track(g, Idle) == Some(Idle) && NeverSuspends(g, p.me.tid)
  {
    var primary := PrimaryStack(p, exc);
    PreambleFacts(p, exc, Idle);
    PrimaryStackQuiet(p, exc, Idle);
    GatedThreadsFacts(p, primary.resolved, Idle);
  }

  /**
   With the module snapshot closed after its listing, the report prints
   exactly what the source's report prints and ends holding nothing.
   */
  lemma ReportCorrectedHandles(p: Process, exc: Option<ExceptionInfo>)
    ensures Track(ReportCorrected(p, exc), Idle) == Some(Idle)
    ensures NeverSuspends(ReportCorrected(p, exc), p.me.tid)
    ensures PrintedLines(ReportCorrected(p, exc)) == PrintedLines(Report(p, exc))
  {
    var primary := PrimaryStack(p, exc);
    var a, b, g, m := Preamble(p, exc), primary.events, GatedThreads(p, primary.resolved), ModulesSection(p.me, p.modules);
    ReportParts(p, exc);
    BeforeModulesQuiet(p, exc);
    assert NoThreadCalls(m) by {
      ModulesSectionShape(p.me, p.modules);
    }
    assert Track(m, Idle) == Some(Idle) by {
      ModulesSectionHandles(p.me, p.modules, Idle);
    }
    TrackParts(a, b, g, m, Idle, Idle);
    NeverSuspendsParts(a, b, g, m, p.me.tid);
    PrintedLinesAppend(a + b + g, m);
    PrintedLinesAppend(a + b + g, ModulesSectionAsWritten(p.me, p.modules));
    ModulesSectionPrints(p.me, p.modules);
  }

  /**
   The printed report, in order: the exception records (if any), the
   primary trace, the threads (if it resolved), the modules.
   */
  lemma ReportLayout(p: Process, exc: Option<ExceptionInfo>)
    ensures var w := Walk(PrimarySteps(p, exc), p.sym);
            PrintedLines(Report(p, exc))
            == (if exc.Some? then RecordLines(exc.value.record, false, p.sym) else [])
               + ([StackTraceHeader] + TraceLines(w))
               + (if w.resolved then PrintedLines(ThreadsSection(p.me, p.threads, p.sym)) else [])
               + PrintedLines(ModulesSectionAsWritten(p.me, p.modules))
  {
    var primary := PrimaryStack(p, exc);
    var a, b, g, m := Preamble(p, exc), primary.events, GatedThreads(p, primary.resolved), ModulesSectionAsWritten(p.me, p.modules);
    var w := Walk(PrimarySteps(p, exc), p.sym);
    ReportParts(p, exc);
    PrintedLinesOfParts(a, b, g, m);
    assert PrintedLines(a) == if exc.Some? then RecordLines(exc.value.record, false, p.sym) else [] by {
      PreambleFacts(p, exc, Idle);
    }
    assert PrintedLines(b) == [StackTraceHeader] + TraceLines(w) && primary.resolved == w.resolved by {
      PrimaryStackChoice(p, exc);
    }
    assert PrintedLines(g) == if w.resolved then PrintedLines(ThreadsSection(p.me, p.threads, p.sym)) else [];
  }
}

=== FILE: curves_masks.dfy ===
/**
 Curve and point selections over a curves geometry (`curves_masks.cc`).

 Curve `c` owns the contiguous points `[o[c], o[c + 1])` of an offsets
 sequence `o`. Index masks are sets of indices. `curve_mask_from_points`
 selects the curves that own a selected point; `end_points` keeps the points
 outside the interior of every masked curve, where a curve's interior is its
 range with `amountStart` points dropped from the front and `amountEnd` from
 the back, or, inverted, exactly the points inside those interiors.
 */
module CurvesMasks {

  /** Offsets are empty (no curves) or start at zero and never decrease. */
  predicate ValidOffsets(o: seq<int>) {
    && (|o| == 0 || o[0] == 0)
    && forall i, j :: 0 <= i <= j < |o| ==> o[i] <= o[j]
  }

  function CurvesNum(o: seq<int>): nat {
    if |o| == 0 then 0 else |o| - 1
  }

  function PointsNum(o: seq<int>): (n: nat)
    requires ValidOffsets(o)
    ensures forall c :: 0 <= c < |o| ==> o[c] <= n
  {
    if |o| == 0 then 0 else o[|o| - 1]
  }

  /** The indices `start .. start + size - 1`. */
  datatype IndexRange = IndexRange(start: int, size: nat)

  predicate Contains(r: IndexRange, i: int) {
    r.start <= i < r.start + r.size
  }

  /** `points_by_curve[c]` */
  function CurveRange(o: seq<int>, c: int): (r: IndexRange)
    requires ValidOffsets(o) && 0 <= c < CurvesNum(o)
    ensures forall i :: Contains(r, i) <==> o[c] <= i < o[c + 1]
  {
    IndexRange(o[c], o[c + 1] - o[c])
  }

  /** `IndexRange::drop_front`: the range without its first `n` indices. */
  function DropFront(r: IndexRange, n: int): (d: IndexRange)
    requires n >= 0
    ensures forall i :: Contains(d, i) <==> Contains(r, i) && r.start + n <= i
  {
    IndexRange(r.start + n, if r.size > n then r.size - n else 0)
  }

  /** `IndexRange::drop_back`: the range without its last `n` indices. */
  function DropBack(r: IndexRange, n: int): (d: IndexRange)
    requires n >= 0
    ensures d.start == r.start
    ensures forall i :: Contains(d, i) <==> Contains(r, i) && i < r.start + r.size - n
  {
    IndexRange(r.start, if r.size > n then r.size - n else 0)
  }

  /** The slice of curve `c` that `end_points` fills. */
  function Interior(o: seq<int>, c: int, amountStart: int, amountEnd: int): (r: IndexRange)
    requires ValidOffsets(o) && 0 <= c < CurvesNum(o) && amountStart >= 0 && amountEnd >= 0
    ensures forall i :: Contains(r, i) <==> o[c] + amountStart <= i < o[c + 1] - amountEnd
    ensures r.size > 0 ==> 0 <= r.start && r.start + r.size <= PointsNum(o)
  {
    DropBack(DropFront(CurveRange(o, c), amountStart), amountEnd)
  }

  /** A mask of curves names only curves of the geometry. */
  predicate CurveMask(o: seq<int>, mask: set<int>) {
    forall c :: c in mask ==> 0 <= c < CurvesNum(o)
  }

  /** Curve `c` exists; it names the comprehension below, which gives that set a trigger. */
  predicate IsCurve(o: seq<int>, c: int) {
    0 <= c < CurvesNum(o)
  }

  /** `curves_range()`: the mask of every curve. */
  function CurvesRange(o: seq<int>): (all: set<int>)
    ensures forall c :: c in all <==> 0 <= c < CurvesNum(o)
  {
    set c | 0 <= c < CurvesNum(o) && IsCurve(o, c)
  }

  /** Point `i` exists; as with `IsCurve`, it gives the comprehension below a trigger. */
  predicate IsPoint(o: seq<int>, i: int)
    requires ValidOffsets(o)
  {
    0 <= i < PointsNum(o)
  }

  /** The indices of every point. */
  function PointsRange(o: seq<int>): (all: set<int>)
    requires ValidOffsets(o)
    ensures forall i :: i in all <==> 0 <= i < PointsNum(o)
  {
    set i | 0 <= i < PointsNum(o) && IsPoint(o, i)
  }

  predicate PointMask(o: seq<int>, mask: set<int>)
    requires ValidOffsets(o)
  {
    forall i :: i in mask ==> 0 <= i < PointsNum(o)
  }

  /*
   * Selecting curves by their points
   */

  /** The curves owning at least one point of `pointMask`. */
  function CurvesWithSelection(o: seq<int>, pointMask: set<int>): set<int>
    requires ValidOffsets(o)
  {
    set c | 0 <= c < CurvesNum(o) && exists i :: Contains(CurveRange(o, c), i) && i in pointMask
  }

  /** `IndexMask::to_bools` */
  function ToBools(mask: set<int>, n: nat): (b: seq<bool>)
    ensures |b| == n && forall i :: 0 <= i < n ==> (b[i] <==> i in mask)
  {
    seq(n, i => i in mask)
  }

  /** The predicate `curve_mask_from_points` hands to `IndexMask::from_predicate`. */
  method AnySelected(selected: seq<bool>, points: IndexRange) returns (found: bool)
    requires points.size > 0 ==> 0 <= points.start && points.start + points.size <= |selected|
    ensures found <==> exists i :: Contains(points, i) && selected[i]
  {
    var k := 0;
    while k < points.size
      invariant 0 <= k <= points.size
      invariant forall i :: points.start <= i < points.start + k ==> !selected[i]
    {
      if selected[points.start + k] {
        return true;
      }
      k := k + 1;
    }
    return false;
  }

  /** `curve_mask_from_points` */
  method CurveMaskFromPoints(o: seq<int>, pointMask: set<int>) returns (mask: set<int>)
    requires ValidOffsets(o) && PointMask(o, pointMask)
    ensures mask == CurvesWithSelection(o, pointMask)
  {
    var selected := ToBools(pointMask, PointsNum(o));
    mask := {};
    var c := 0;
    while c < CurvesNum(o)
      invariant 0 <= c <= CurvesNum(o)
      invariant mask == set d | 0 <= d < c && exists i :: Contains(CurveRange(o, d), i) && i in pointMask
    {
      var points := CurveRange(o, c);
      var found := AnySelected(selected, points);
      if found {
        mask := mask + {c};
      }
      c := c + 1;
    }
  }

  /** Every point of the geometry belongs to some curve. */
  lemma {:induction false} PointHasCurve(o: seq<int>, i: int, k: nat)
    requires ValidOffsets(o) && k < CurvesNum(o) && o[k] <= i < PointsNum(o)
    ensures exists c :: k <= c < CurvesNum(o) && Contains(CurveRange(o, c), i)
    decreases CurvesNum(o) - k
  {
    if i < o[k + 1] {
      assert Contains(CurveRange(o, k), i);
    } else {
      PointHasCurve(o, i, k + 1);
    }
  }

  /** No point is lost: the curve of every selected point is selected. */
  lemma SelectedPointsKeepTheirCurve(o: seq<int>, pointMask: set<int>, i: int)
    requires ValidOffsets(o) && i in pointMask && 0 <= i < PointsNum(o)
    ensures exists c :: c in CurvesWithSelection(o, pointMask) && Contains(CurveRange(o, c), i)
  {
    PointHasCurve(o, i, 0);
    var c :| 0 <= c < CurvesNum(o) && Contains(CurveRange(o, c), i);
    assert c in CurvesWithSelection(o, pointMask);
  }

  /*
   * End points
   */

  /** Point `i` lies in the interior of one of the curves of `mask` below `k`. */
  predicate CoveredBelow(o: seq<int>, mask: set<int>, amountStart: int, amountEnd: int, i: int, k: int)
    requires ValidOffsets(o) && k <= CurvesNum(o) && amountStart >= 0 && amountEnd >= 0
  {
    exists c :: 0 <= c < k && c in mask && Contains(Interior(o, c, amountStart, amountEnd), i)
  }

  /** Point `i` lies in the interior of some curve of `mask`. */
  predicate Covered(o: seq<int>, mask: set<int>, amountStart: int, amountEnd: int, i: int)
    requires ValidOffsets(o) && amountStart >= 0 && amountEnd >= 0
  {
    CoveredBelow(o, mask, amountStart, amountEnd, i, CurvesNum(o))
  }

  /**
   What `end_points` selects: the points outside every masked interior, or,
   when inverted, the points inside one.
   */
  function EndPointSet(o: seq<int>, mask: set<int>, amountStart: int, amountEnd: int, inverted: bool): set<int>
    requires ValidOffsets(o) && amountStart >= 0 && amountEnd >= 0
  {
    set i | 0 <= i < PointsNum(o) && (Covered(o, mask, amountStart, amountEnd, i) <==> inverted)
  }

  /** `MutableSpan::slice(r).fill(v)` */
  method Fill(flags: seq<bool>, r: IndexRange, v: bool) returns (filled: seq<bool>)
    requires r.size > 0 ==> 0 <= r.start && r.start + r.size <= |flags|
    ensures |filled| == |flags|
    ensures forall i :: 0 <= i < |flags| ==> filled[i] == if Contains(r, i) then v else flags[i]
  {
    filled := flags;
    var k := 0;
    while k < r.size
      invariant 0 <= k <= r.size && |filled| == |flags|
      invariant forall i :: 0 <= i < |flags| ==>
                  filled[i] == if r.start <= i < r.start + k then v else flags[i]
    {
      filled := filled[r.start + k := v];
      k := k + 1;
    }
  }

  lemma CoveredBelowStep(o: seq<int>, mask: set<int>, amountStart: int, amountEnd: int, i: int, k: int)
    requires ValidOffsets(o) && 0 <= k < CurvesNum(o) && amountStart >= 0 && amountEnd >= 0
    ensures CoveredBelow(o, mask, amountStart, amountEnd, i, k + 1)
            <==> CoveredBelow(o, mask, amountStart, amountEnd, i, k)
                 || (k in mask && Contains(Interior(o, k, amountStart, amountEnd), i))
  {
    if CoveredBelow(o, mask, amountStart, amountEnd, i, k + 1) {
      var c :| 0 <= c < k + 1 && c in mask && Contains(Interior(o, c, amountStart, amountEnd), i);
      if c < k {
        assert CoveredBelow(o, mask, amountStart, amountEnd, i, k);
      }
    }
  }

  /** `end_points` over the curves of `curvesMask` */
  method EndPoints(o: seq<int>, curvesMask: set<int>, amountStart: int, amountEnd: int, inverted: bool)
    returns (r: set<int>)
    requires ValidOffsets(o) && CurveMask(o, curvesMask) && amountStart >= 0 && amountEnd >= 0
    ensures forall i :: i in r ==> 0 <= i < PointsNum(o)
    ensures forall i :: i in r <==> 0 <= i < PointsNum(o) && (Covered(o, curvesMask, amountStart, amountEnd, i) <==> inverted)
    ensures r == EndPointSet(o, curvesMask, amountStart, amountEnd, inverted)
  {
    var n := PointsNum(o);
    var flags := seq(n, _ => !inverted);
    var c := 0;
    while c < CurvesNum(o)
      invariant 0 <= c <= CurvesNum(o) && |flags| == n
      invariant forall i :: 0 <= i < n ==>
                  flags[i] == (CoveredBelow(o, curvesMask, amountStart, amountEnd, i, c) == inverted)
    {
      var before := flags;
      if c in curvesMask {
        flags := Fill(flags, Interior(o, c, amountStart, amountEnd), inverted);
      }
      forall i | 0 <= i < n
        ensures flags[i] == (CoveredBelow(o, curvesMask, amountStart, amountEnd, i, c + 1) == inverted)
      {
        CoveredBelowStep(o, curvesMask, amountStart, amountEnd, i, c);
      }
      c := c + 1;
    }
    r := set i | 0 <= i < n && flags[i];
  }

  /** The overload without a curve mask: every curve. */
  method EndPointsAll(o: seq<int>, amountStart: int, amountEnd: int, inverted: bool) returns (r: set<int>)
    requires ValidOffsets(o) && amountStart >= 0 && amountEnd >= 0
    ensures r == EndPointSet(o, CurvesRange(o), amountStart, amountEnd, inverted)
  {
    r := EndPoints(o, CurvesRange(o), amountStart, amountEnd, inverted);
  }

  /** The plain and the inverted selections split the points between them. */
  lemma EndPointsComplement(o: seq<int>, mask: set<int>, amountStart: int, amountEnd: int)
    requires ValidOffsets(o) && amountStart >= 0 && amountEnd >= 0
    ensures var plain, inv := EndPointSet(o, mask, amountStart, amountEnd, false),
                              EndPointSet(o, mask, amountStart, amountEnd, true);
            && plain !! inv
            && plain + inv == PointsRange(o)
  {
  }

  /** Inverted, the selection is exactly the union of the masked curves' interiors. */
  lemma InvertedIsInteriorUnion(o: seq<int>, mask: set<int>, amountStart: int, amountEnd: int, i: int)
    requires ValidOffsets(o) && amountStart >= 0 && amountEnd >= 0
    ensures i in EndPointSet(o, mask, amountStart, amountEnd, true)
            <==> exists c :: 0 <= c < CurvesNum(o) && c in mask && o[c] + amountStart <= i < o[c + 1] - amountEnd
  {
    if exists c :: 0 <= c < CurvesNum(o) && c in mask && o[c] + amountStart <= i < o[c + 1] - amountEnd {
      var c :| 0 <= c < CurvesNum(o) && c in mask && o[c] + amountStart <= i < o[c + 1] - amountEnd;
      var r := Interior(o, c, amountStart, amountEnd);
      assert Contains(r, i);
      assert Covered(o, mask, amountStart, amountEnd, i);
    }
  }

  /** Distinct curves own disjoint point ranges. */
  lemma CurvesDisjoint(o: seq<int>, c: int, d: int, i: int)
    requires ValidOffsets(o) && 0 <= c < CurvesNum(o) && 0 <= d < CurvesNum(o)
    requires Contains(CurveRange(o, c), i) && Contains(CurveRange(o, d), i)
    ensures c == d
  {
  }

  /** Interiors of distinct curves never share a point. */
  lemma InteriorsDisjoint(o: seq<int>, c: int, d: int, amountStart: int, amountEnd: int, i: int)
    requires ValidOffsets(o) && 0 <= c < CurvesNum(o) && 0 <= d < CurvesNum(o) && amountStart >= 0 && amountEnd >= 0
    requires Contains(Interior(o, c, amountStart, amountEnd), i) && Contains(Interior(o, d, amountStart, amountEnd), i)
    ensures c == d
  {
    CurvesDisjoint(o, c, d, i);
  }

  /** Every point of a curve outside the mask is selected exactly when not inverted. */
  lemma UnmaskedCurveKeepsPoints(o: seq<int>, mask: set<int>, amountStart: int, amountEnd: int, inverted: bool, c: int, i: int)
    requires ValidOffsets(o) && amountStart >= 0 && amountEnd >= 0
    requires 0 <= c < CurvesNum(o) && c !in mask && Contains(CurveRange(o, c), i)
    ensures i in EndPointSet(o, mask, amountStart, amountEnd, inverted) <==> !inverted
  {
    if Covered(o, mask, amountStart, amountEnd, i) {
      var d :| 0 <= d < CurvesNum(o) && d in mask && Contains(Interior(o, d, amountStart, amountEnd), i);
      CurvesDisjoint(o, c, d, i);
    }
    assert 0 <= i < PointsNum(o);
  }
}

=== FILE: decimal.dfy ===
/**
 The `%d` conversion of `printf` for non-negative values, and its inverse.
 */
module Decimal {

  predicate IsDigit(c: char) {
    '0' <= c <= '9'
  }

  predicate AllDigits(s: string) {
    forall i :: 0 <= i < |s| ==> IsDigit(s[i])
  }

  function DigitChar(d: nat): (c: char)
    requires d < 10
    ensures IsDigit(c)
  {
    ('0' as int + d) as char
  }

  function DigitValue(c: char): (d: nat)
    requires IsDigit(c)
    ensures d < 10
  {
    c as int - '0' as int
  }

  /** Decimal digits of `n`, most significant first, without leading zeros. */
  function ToDecimal(n: nat): (s: string)
    ensures |s| >= 1
    ensures AllDigits(s)
    ensures n > 0 ==> s[0] != '0'
    ensures '.' !in s
    decreases n
  {
    if n < 10 then [DigitChar(n)] else ToDecimal(n / 10) + [DigitChar(n % 10)]
  }

  /** Reads a run of decimal digits back into its value. */
  function ParseDecimal(s: string): nat
    requires AllDigits(s)
  {
    if |s| == 0 then 0 else ParseDecimal(s[..|s| - 1]) * 10 + DigitValue(s[|s| - 1])
  }

  function Pow10(k: nat): (p: nat)
    ensures p >= 1
  {
    if k == 0 then 1 else 10 * Pow10(k - 1)
  }

  /** Printing a number and reading it back gives the number. */
  lemma {:induction false} ParseToDecimal(n: nat)
    ensures ParseDecimal(ToDecimal(n)) == n
    decreases n
  {
    if n >= 10 {
      var s := ToDecimal(n);
      assert s[..|s| - 1] == ToDecimal(n / 10);
      ParseToDecimal(n / 10);
    }
  }

  /** A number below 10^k prints in at most k digits (k >= 1: zero still takes one). */
  lemma {:induction false} ToDecimalLength(n: nat, k: nat)
    requires k >= 1 && n < Pow10(k)
    ensures |ToDecimal(n)| <= k
    decreases n
  {
    if n >= 10 {
      assert n / 10 < Pow10(k - 1);
      ToDecimalLength(n / 10, k - 1);
    }
  }
}

=== FILE: enumeration.dfy ===
/**
 The two enumerations of a report: the stacks of the process's other threads
 (`bli_windows_system_backtrace_threads`) and the loaded modules
 (`bli_windows_system_backtrace_modules`). Each toolhelp snapshot is an input
 sequence whose entries carry the operating system's answers for that entry.
 */
module Enumeration {
  import opened Options
  import opened CrashEvents
  import opened HandleProtocol
  import opened StackWalk
  import opened ModuleVersion

  /** `GetCurrentProcessId()` and `GetCurrentThreadId()` of the reporting thread. */
  datatype Identity = Identity(pid: nat, tid: nat)

  /** A `THREADENTRY32`, with the context-capture outcome the thread would give. */
  datatype ThreadEntry = ThreadEntry(ownerPid: nat, id: nat, capture: Capture)

  /** The entries the thread section samples: this process's threads other than the reporting one. */
  predicate Sampled(me: Identity, e: ThreadEntry) {
    e.ownerPid == me.pid && e.id != me.tid
  }

  /** One turn of the `do … while (Thread32Next(…))` loop. */
  function VisitThread(me: Identity, e: ThreadEntry, sym: Symbolizer): seq<Event> {
    if Sampled(me, e) then
      [Print(ThreadHeader(e.id)), Call(OpenThread(e.id))]
      + SampleThread(OtherThread(e.id, e.capture), sym).events
      + [Call(CloseThread(e.id))]
    else []
  }

  function VisitThreads(me: Identity, es: seq<ThreadEntry>, sym: Symbolizer): seq<Event> {
    if |es| == 0 then [] else VisitThread(me, es[0], sym) + VisitThreads(me, es[1..], sym)
  }

  /**
   The thread section. An empty snapshot stands for `Thread32First` failing:
   the handle is closed and nothing is visited.
   */
  function ThreadsSection(me: Identity, snap: Snapshot<ThreadEntry>, sym: Symbolizer): seq<Event> {
    [Print(ThreadsHeader)]
    + match snap
      case Unavailable => [Print(ThreadsUnavailable)]
      case Taken(es) =>
        [Call(OpenSnapshot(ThreadSnapshot))] + VisitThreads(me, es, sym) + [Call(CloseSnapshot(ThreadSnapshot))]
  }

  /** The ids of the sampled entries, in snapshot order. */
  function SampledIds(me: Identity, es: seq<ThreadEntry>): (ids: seq<nat>)
    ensures forall i :: 0 <= i < |ids| ==> ids[i] != me.tid
  {
    if |es| == 0 then []
    else (if Sampled(me, es[0]) then [es[0].id] else []) + SampledIds(me, es[1..])
  }

  /** The ids of the threads opened by `ev`, in order. */
  function OpenedThreads(ev: seq<Event>): seq<nat> {
    if |ev| == 0 then []
    else (if ev[0].Call? && ev[0].action.OpenThread? then [ev[0].action.id] else []) + OpenedThreads(ev[1..])
  }

  lemma {:induction false} OpenedThreadsAppend(a: seq<Event>, b: seq<Event>)
    ensures OpenedThreads(a + b) == OpenedThreads(a) + OpenedThreads(b)
    decreases |a|
  {
    if |a| > 0 {
      assert (a + b)[0] == a[0] && (a + b)[1..] == a[1..] + b;
      OpenedThreadsAppend(a[1..], b);
    } else {
      assert a + b == b;
    }
  }

  lemma {:induction false} OpenedThreadsNone(ev: seq<Event>)
    requires forall i :: 0 <= i < |ev| ==> !(ev[i].Call? && ev[i].action.OpenThread?)
    ensures OpenedThreads(ev) == []
    decreases |ev|
  {
    if |ev| > 0 {
      OpenedThreadsNone(ev[1..]);
    }
  }

  /** The events of visiting a sampled thread around its sample. */
  function VisitFrame(id: nat, sample: seq<Event>): seq<Event> {
    [Print(ThreadHeader(id)), Call(OpenThread(id))] + sample + [Call(CloseThread(id))]
  }

  lemma VisitFrameTrack(id: nat, sample: seq<Event>, snapshots: set<SnapshotKind>)
    requires Track(sample, Handles(Some(id), None, snapshots)) == Some(Handles(Some(id), None, snapshots))
    ensures Track(VisitFrame(id, sample), Handles(None, None, snapshots)) == Some(Handles(None, None, snapshots))
  {
    var idle := Handles(None, None, snapshots);
    var held := Handles(Some(id), None, snapshots);
    var pre := [Print(ThreadHeader(id)), Call(OpenThread(id))];
    var post := [Call(CloseThread(id))];
    assert VisitFrame(id, sample) == pre + (sample + post);
    assert pre[1..][1..] == [] && post[1..] == [];
    TrackAppend(pre, sample + post, idle);
    TrackAppend(sample, post, held);
    assert Track(pre, idle) == Some(held) by {
      assert Track(pre[1..], idle) == Track(pre[1..][1..], held);
    }
    assert Track(post, held) == Some(idle);
  }

  lemma VisitFrameOpens(id: nat, sample: seq<Event>)
    requires forall i :: 0 <= i < |sample| ==> !(sample[i].Call? && sample[i].action.OpenThread?)
    ensures OpenedThreads(VisitFrame(id, sample)) == [id]
  {
    var pre := [Print(ThreadHeader(id)), Call(OpenThread(id))];
    var post := [Call(CloseThread(id))];
    assert VisitFrame(id, sample) == pre + (sample + post);
    OpenedThreadsAppend(pre, sample + post);
    OpenedThreadsAppend(sample, post);
    OpenedThreadsNone(sample);
    OpenedThreadsNone(post);
    assert pre[1..][1..] == [];
  }

  lemma VisitFrameQuiet(id: nat, sample: seq<Event>, tid: nat, parts: set<Part>)
    requires NeverSuspends(sample, tid) && LinesWithin(sample, parts) && ThreadsPart in parts
    ensures NeverSuspends(VisitFrame(id, sample), tid) && LinesWithin(VisitFrame(id, sample), parts)
  {
    var pre := [Print(ThreadHeader(id)), Call(OpenThread(id))];
    var post := [Call(CloseThread(id))];
    assert VisitFrame(id, sample) == pre + (sample + post);
    NeverSuspendsAppend(sample, post, tid);
    NeverSuspendsAppend(pre, sample + post, tid);
    LinesWithinAppend(sample, post, parts);
    LinesWithinAppend(pre, sample + post, parts);
  }

  /** A visited thread is opened, sampled, resumed and closed; the reporting thread is never suspended. */
  lemma VisitThreadFacts(me: Identity, e: ThreadEntry, sym: Symbolizer, snapshots: set<SnapshotKind>)
    ensures var ev := VisitThread(me, e, sym);
            && Track(ev, Handles(None, None, snapshots)) == Some(Handles(None, None, snapshots))
            && OpenedThreads(ev) == (if Sampled(me, e) then [e.id] else [])
            && NeverSuspends(ev, me.tid)
            && LinesWithin(ev, {TracePart, ThreadsPart, BreakPart})
  {
    if Sampled(me, e) {
      var sample := SampleThread(OtherThread(e.id, e.capture), sym).events;
      assert VisitThread(me, e, sym) == VisitFrame(e.id, sample);
      ForeignSampleProtocol(e.id, e.capture, sym, snapshots);
      VisitFrameTrack(e.id, sample, snapshots);
      assert forall i :: 0 <= i < |sample| ==> !(sample[i].Call? && sample[i].action.OpenThread?) by {
        forall i | 0 <= i < |sample|
          ensures !(sample[i].Call? && sample[i].action.OpenThread?)
        {
          if i < 3 {
            assert sample[i] == SuspendBracket(e.id)[i];
          }
        }
      }
      VisitFrameOpens(e.id, sample);
      VisitFrameQuiet(e.id, sample, me.tid, {TracePart, ThreadsPart, BreakPart});
    }
  }

  lemma {:induction false} VisitThreadsFacts(me: Identity, es: seq<ThreadEntry>, sym: Symbolizer, snapshots: set<SnapshotKind>)
    ensures var ev := VisitThreads(me, es, sym);
            && Track(ev, Handles(None, None, snapshots)) == Some(Handles(None, None, snapshots))
            && OpenedThreads(ev) == SampledIds(me, es)
            && NeverSuspends(ev, me.tid)
            && LinesWithin(ev, {TracePart, ThreadsPart, BreakPart})
    decreases |es|
  {
    if |es| > 0 {
      var a, b := VisitThread(me, es[0], sym), VisitThreads(me, es[1..], sym);
      assert VisitThreads(me, es, sym) == a + b;
      VisitThreadFacts(me, es[0], sym, snapshots);
      VisitThreadsFacts(me, es[1..], sym, snapshots);
      TrackAppend(a, b, Handles(None, None, snapshots));
      OpenedThreadsAppend(a, b);
      NeverSuspendsAppend(a, b, me.tid);
      LinesWithinAppend(a, b, {TracePart, ThreadsPart, BreakPart});
    }
  }

  /** The ids of the "Thread : <id>" headers among `lines`, in order. */
  function ThreadHeaderIds(lines: seq<Line>): (ids: seq<nat>)
    ensures forall t :: t in ids <==> ThreadHeader(t) in lines
  {
    if |lines| == 0 then []
    else (if lines[0].ThreadHeader? then [lines[0].id] else []) + ThreadHeaderIds(lines[1..])
  }

  lemma {:induction false} ThreadHeaderIdsAppend(a: seq<Line>, b: seq<Line>)
    ensures ThreadHeaderIds(a + b) == ThreadHeaderIds(a) + ThreadHeaderIds(b)
    decreases |a|
  {
    if |a| > 0 {
      assert (a + b)[0] == a[0] && (a + b)[1..] == a[1..] + b;
      ThreadHeaderIdsAppend(a[1..], b);
    } else {
      assert a + b == b;
    }
  }

  /** Lines of the trace and break parts hold no thread header. */
  lemma {:induction false} ThreadHeaderIdsOfTrace(lines: seq<Line>)
    requires forall i :: 0 <= i < |lines| ==> PartOf(lines[i]) in {TracePart, BreakPart}
    ensures ThreadHeaderIds(lines) == []
    decreases |lines|
  {
    if |lines| > 0 {
      ThreadHeaderIdsOfTrace(lines[1..]);
    }
  }

  /** What visiting an entry prints: for a sampled thread, its header and then its own sample. */
  function ThreadBlock(me: Identity, e: ThreadEntry, sym: Symbolizer): seq<Line> {
    if Sampled(me, e) then [ThreadHeader(e.id)] + SampleLines(e.capture, sym) else []
  }

  /** The blocks of all entries, in snapshot order. */
  function ThreadBlocks(me: Identity, es: seq<ThreadEntry>, sym: Symbolizer): seq<Line> {
    if |es| == 0 then [] else ThreadBlock(me, es[0], sym) + ThreadBlocks(me, es[1..], sym)
  }

  lemma VisitFramePrinted(id: nat, sample: seq<Event>)
    ensures PrintedLines(VisitFrame(id, sample)) == [ThreadHeader(id)] + PrintedLines(sample)
  {
    var post := [Call(CloseThread(id))];
    var rest := [Call(OpenThread(id))] + (sample + post);
    assert VisitFrame(id, sample) == [Print(ThreadHeader(id))] + rest;
    PrintedLinesCons(Print(ThreadHeader(id)), rest);
    PrintedLinesCons(Call(OpenThread(id)), sample + post);
    PrintedLinesAppend(sample, post);
    PrintedLinesOfCalls(post);
    assert PrintedLines(sample) + [] == PrintedLines(sample);
  }

  lemma VisitThreadPrinted(me: Identity, e: ThreadEntry, sym: Symbolizer)
    ensures PrintedLines(VisitThread(me, e, sym)) == ThreadBlock(me, e, sym)
  {
    if Sampled(me, e) {
      var sample := SampleThread(OtherThread(e.id, e.capture), sym).events;
      assert VisitThread(me, e, sym) == VisitFrame(e.id, sample);
      VisitFramePrinted(e.id, sample);
      ForeignSamplePrinted(e.id, e.capture, sym);
    } else {
      assert VisitThread(me, e, sym) == [];
    }
  }

  /** Each sampled thread's header is followed by that thread's own sample lines. */
  lemma {:induction false} VisitThreadsPrinted(me: Identity, es: seq<ThreadEntry>, sym: Symbolizer)
    ensures PrintedLines(VisitThreads(me, es, sym)) == ThreadBlocks(me, es, sym)
    decreases |es|
  {
    if |es| > 0 {
      var a, b := VisitThread(me, es[0], sym), VisitThreads(me, es[1..], sym);
      assert VisitThreads(me, es, sym) == a + b;
      VisitThreadPrinted(me, es[0], sym);
      VisitThreadsPrinted(me, es[1..], sym);
      PrintedLinesAppend(a, b);
    }
  }

  /** A sample prints no thread header. */
  lemma SampleLinesNoHeader(capture: Capture, sym: Symbolizer)
    ensures ThreadHeaderIds(SampleLines(capture, sym)) == []
  {
    match capture {
      case CaptureFailed(error) =>
        ThreadHeaderIdsOfTrace([CannotGetThreadContext(error)]);
      case Captured(steps) =>
        var lines := TraceLines(Walk(steps, sym));
        var frames := FrameLines(Walk(steps, sym).frames);
        assert forall i :: 0 <= i < |lines| ==> PartOf(lines[i]) in {TracePart, BreakPart} by {
          forall i | 0 <= i < |lines|
            ensures PartOf(lines[i]) in {TracePart, BreakPart}
          {
            if i < |frames| {
              assert lines[i] == frames[i];
            }
          }
        }
        ThreadHeaderIdsOfTrace(lines);
    }
  }

  /** A visited thread prints its own header and no other. */
  lemma VisitThreadHeaders(me: Identity, e: ThreadEntry, sym: Symbolizer)
    ensures ThreadHeaderIds(PrintedLines(VisitThread(me, e, sym))) == if Sampled(me, e) then [e.id] else []
  {
    VisitThreadPrinted(me, e, sym);
    if Sampled(me, e) {
      SampleLinesNoHeader(e.capture, sym);
      ThreadHeaderIdsAppend([ThreadHeader(e.id)], SampleLines(e.capture, sym));
      assert ThreadHeaderIds([ThreadHeader(e.id)]) == [e.id] by {
        assert [ThreadHeader(e.id)][1..] == [];
      }
    }
  }

  /** The visits print one header per sampled thread, in snapshot order. */
  lemma {:induction false} VisitThreadsHeaders(me: Identity, es: seq<ThreadEntry>, sym: Symbolizer)
    ensures ThreadHeaderIds(PrintedLines(VisitThreads(me, es, sym))) == SampledIds(me, es)
    decreases |es|
  {
    if |es| > 0 {
      var a, b := VisitThread(me, es[0], sym), VisitThreads(me, es[1..], sym);
      assert VisitThreads(me, es, sym) == a + b;
      VisitThreadHeaders(me, es[0], sym);
      VisitThreadsHeaders(me, es[1..], sym);
      PrintedLinesAppend(a, b);
      ThreadHeaderIdsAppend(PrintedLines(a), PrintedLines(b));
    }
  }

  /** The thread section around its visits, when the snapshot was taken. */
  function SnapshotFrame(body: seq<Event>): seq<Event> {
    [Print(ThreadsHeader), Call(OpenSnapshot(ThreadSnapshot))] + body + [Call(CloseSnapshot(ThreadSnapshot))]
  }

  lemma SnapshotFrameTrack(body: seq<Event>, h: Handles)
    requires ThreadSnapshot !in h.snapshots
    requires Track(body, h.(snapshots := h.snapshots + {ThreadSnapshot})) == Some(h.(snapshots := h.snapshots + {ThreadSnapshot}))
    ensures Track(SnapshotFrame(body), h) == Some(h)
  {
    var held := h.(snapshots := h.snapshots + {ThreadSnapshot});
    var head, open, close := [Print(ThreadsHeader)], [Call(OpenSnapshot(ThreadSnapshot))], [Call(CloseSnapshot(ThreadSnapshot))];
    assert SnapshotFrame(body) == head + open + body + close;
    TrackAppend(head + open + body, close, h);
    TrackAppend(head + open, body, h);
    TrackAppend(head, open, h);
    assert Track(head, h) == Some(h) by {
      assert head[1..] == [];
    }
    assert Track(open, h) == Some(held) by {
      assert open[1..] == [];
    }
    assert Track(close, held) == Some(h) by {
      assert close[1..] == [];
      assert held.snapshots - {ThreadSnapshot} == h.snapshots;
    }
  }

  lemma SnapshotFrameQuiet(body: seq<Event>, tid: nat, parts: set<Part>)
    requires NeverSuspends(body, tid) && LinesWithin(body, parts) && ThreadsPart in parts
    ensures OpenedThreads(SnapshotFrame(body)) == OpenedThreads(body)
    ensures NeverSuspends(SnapshotFrame(body), tid) && LinesWithin(SnapshotFrame(body), parts)
  {
    var head, open, close := [Print(ThreadsHeader)], [Call(OpenSnapshot(ThreadSnapshot))], [Call(CloseSnapshot(ThreadSnapshot))];
    assert SnapshotFrame(body) == head + open + body + close;
    OpenedThreadsAppend(head + open + body, close);
    OpenedThreadsAppend(head + open, body);
    OpenedThreadsNone(head + open);
    OpenedThreadsNone(close);
    NeverSuspendsAppend(head + open, body, tid);
    NeverSuspendsAppend(head + open + body, close, tid);
    LinesWithinAppend(head + open, body, parts);
    LinesWithinAppend(head + open + body, close, parts);
  }

  lemma ThreadsSectionUnavailable(me: Identity, sym: Symbolizer, h: Handles)
    ensures var ev := ThreadsSection(me, Unavailable, sym);
            && ev == [Print(ThreadsHeader), Print(ThreadsUnavailable)]
            && Track(ev, h) == Some(h)
            && OpenedThreads(ev) == []
            && ThreadHeaderIds(PrintedLines(ev)) == []
  {
    var ev := ThreadsSection(me, Unavailable, sym);
    assert ev == Prints([ThreadsHeader, ThreadsUnavailable]);
    TrackPrints([ThreadsHeader, ThreadsUnavailable], h);
    OpenedThreadsNone(ev);
    PrintedLinesOfPrints([ThreadsHeader, ThreadsUnavailable]);
    ThreadHeaderIdsOfTrace([]);
  }

  /** The frame around the visits prints only the section header, which is no thread header. */
  lemma SnapshotFrameHeaders(body: seq<Event>)
    ensures ThreadHeaderIds(PrintedLines(SnapshotFrame(body))) == ThreadHeaderIds(PrintedLines(body))
  {
    SnapshotFramePrinted(body);
    ThreadHeaderIdsAppend([ThreadsHeader], PrintedLines(body));
    assert ThreadHeaderIds([ThreadsHeader]) == [] by {
      ThreadHeaderIdsOfTrace([]);
    }
  }

  lemma SnapshotFramePrinted(body: seq<Event>)
    ensures PrintedLines(SnapshotFrame(body)) == [ThreadsHeader] + PrintedLines(body)
  {
    var close := [Call(CloseSnapshot(ThreadSnapshot))];
    var rest := [Call(OpenSnapshot(ThreadSnapshot))] + (body + close);
    assert SnapshotFrame(body) == [Print(ThreadsHeader)] + rest;
    PrintedLinesCons(Print(ThreadsHeader), rest);
    PrintedLinesCons(Call(OpenSnapshot(ThreadSnapshot)), body + close);
    PrintedLinesAppend(body, close);
    PrintedLinesOfCalls(close);
    assert PrintedLines(body) + [] == PrintedLines(body);
  }

  /** The thread headers the section prints are those of the sampled threads, each followed by its sample. */
  lemma ThreadsSectionHeaders(me: Identity, snap: Snapshot<ThreadEntry>, sym: Symbolizer)
    ensures var lines := PrintedLines(ThreadsSection(me, snap, sym));
            && ThreadHeaderIds(lines) == (if snap.Taken? then SampledIds(me, snap.entries) else [])
            && ThreadHeader(me.tid) !in lines
            && (snap.Taken? ==> lines == [ThreadsHeader] + ThreadBlocks(me, snap.entries, sym))
  {
    match snap {
      case Unavailable =>
        ThreadsSectionUnavailable(me, sym, Idle);
      case Taken(es) =>
        var body := VisitThreads(me, es, sym);
        assert ThreadsSection(me, snap, sym) == SnapshotFrame(body);
        SnapshotFrameHeaders(body);
        VisitThreadsHeaders(me, es, sym);
        SnapshotFramePrinted(body);
        VisitThreadsPrinted(me, es, sym);
    }
  }

  /**
   The thread section visits exactly this process's threads other than the
   reporting one, in snapshot order, and prints a header for each of them and
   for no other thread, so the reporting thread is never listed; each header
   is followed by that thread's own sample. It never
   suspends the reporting thread; every thread it opens is resumed and
   closed, and so is the snapshot. An invalid snapshot gives the single
   "unable to retrieve" line.
   */
  lemma ThreadsSectionFacts(me: Identity, snap: Snapshot<ThreadEntry>, sym: Symbolizer, h: Handles)
    requires h.openThread.None? && h.suspended.None? && ThreadSnapshot !in h.snapshots
    ensures var ev := ThreadsSection(me, snap, sym);
            && ev[0] == Print(ThreadsHeader)
            && Track(ev, h) == Some(h)
            && OpenedThreads(ev) == (if snap.Taken? then SampledIds(me, snap.entries) else [])
            && NeverSuspends(ev, me.tid)
            && LinesWithin(ev, {TracePart, ThreadsPart, BreakPart})
            && (snap.Unavailable? ==> ev == [Print(ThreadsHeader), Print(ThreadsUnavailable)])
            && ThreadHeaderIds(PrintedLines(ev)) == (if snap.Taken? then SampledIds(me, snap.entries) else [])
            && ThreadHeader(me.tid) !in PrintedLines(ev)
            && (snap.Taken? ==> PrintedLines(ev) == [ThreadsHeader] + ThreadBlocks(me, snap.entries, sym))
  {
    ThreadsSectionHeaders(me, snap, sym);
    match snap {
      case Unavailable =>
        ThreadsSectionUnavailable(me, sym, h);
      case Taken(es) =>
        var body := VisitThreads(me, es, sym);
        assert ThreadsSection(me, snap, sym) == SnapshotFrame(body);
        VisitThreadsFacts(me, es, sym, h.snapshots + {ThreadSnapshot});
        assert h.(snapshots := h.snapshots + {ThreadSnapshot}) == Handles(None, None, h.snapshots + {ThreadSnapshot});
        SnapshotFrameTrack(body, h);
        SnapshotFrameQuiet(body, me.tid, {TracePart, ThreadsPart, BreakPart});
    }
  }

  /** What `SymGetModuleInfo64` reports for a module base, when it succeeds. */
  datatype PdbInfo = PdbInfo(loadedPdbName: string, unmatched: bool)

  /**
   A `MODULEENTRY32`, with the version-resource answer for its `szExePath` and
   the symbol engine's answer for its base address.
   */
  datatype ModuleEntry = ModuleEntry(ownerPid: nat, base: nat, name: string, version: VersionQuery, pdb: Option<PdbInfo>)

  const UnmatchedMarker: string := "[unmatched]"

  function ModuleLineFor(e: ModuleEntry): (l: Line)
    ensures l.ModuleLine?
  {
    var pdb := match e.pdb
      case None => None
      case Some(p) => Some(PdbColumns(p.loadedPdbName, if p.unmatched then UnmatchedMarker else ""));
    ModuleLine(e.base, ModuleVersionString(e.version), e.name, pdb)
  }

  /** The columns of a module line: the version is empty unless trusted, "[unmatched]" only for a mismatched pdb. */
  lemma ModuleLineColumns(e: ModuleEntry)
    ensures var l := ModuleLineFor(e);
            && l.base == e.base && l.name == e.name
            && (l.version == "" <==> !Trusted(e.version))
            && (l.pdb.Some? <==> e.pdb.Some?)
            && (l.pdb.Some? ==> l.pdb.value.pdbName == e.pdb.value.loadedPdbName
                                && (l.pdb.value.marker == UnmatchedMarker <==> e.pdb.value.unmatched))
  {
  }

  /** The entries of process `pid`, in snapshot order. */
  function OwnModules(pid: nat, es: seq<ModuleEntry>): (own: seq<ModuleEntry>)
    ensures |own| <= |es|
    ensures forall e :: e in own <==> e in es && e.ownerPid == pid
  {
    if |es| == 0 then []
    else (if es[0].ownerPid == pid then [es[0]] else []) + OwnModules(pid, es[1..])
  }

  function ModuleLines(es: seq<ModuleEntry>): (lines: seq<Line>)
    ensures |lines| == |es|
    ensures forall i :: 0 <= i < |es| ==> lines[i] == ModuleLineFor(es[i])
  {
    seq(|es|, i requires 0 <= i < |es| => ModuleLineFor(es[i]))
  }

  /**
   The module section as the source writes it. An empty snapshot stands for
   `Module32First` failing; only on that path is the snapshot handle closed.
   */
  function ModulesSectionAsWritten(me: Identity, snap: Snapshot<ModuleEntry>): seq<Event> {
    [Print(ModulesHeader)]
    + match snap
      case Unavailable => []
      case Taken(es) =>
        if |es| == 0 then
          ModuleListFailure
        else
          [Call(OpenSnapshot(ModuleSnapshot))] + Prints(ModuleLines(OwnModules(me.pid, es)))
  }

  /** `Module32First` failed: the snapshot is closed and the error printed. */
  const ModuleListFailure: seq<Event> :=
    [Call(OpenSnapshot(ModuleSnapshot)), Call(CloseSnapshot(ModuleSnapshot)), Print(ModuleListError)]

  /** The snapshot handles the module section as written leaves open. */
  function ModuleSnapshotLeftOpen(snap: Snapshot<ModuleEntry>): set<SnapshotKind> {
    if snap.Taken? && |snap.entries| > 0 then {ModuleSnapshot} else {}
  }

  /** The missing `CloseHandle` after the listing loop, as the thread section has it. */
  function SnapshotCleanup(snap: Snapshot<ModuleEntry>): seq<Event> {
    if snap.Taken? && |snap.entries| > 0 then [Call(CloseSnapshot(ModuleSnapshot))] else []
  }

  /** The module section with its snapshot handle closed on every path; the corrected report uses this one. */
  function ModulesSection(me: Identity, snap: Snapshot<ModuleEntry>): seq<Event> {
    ModulesSectionAsWritten(me, snap) + SnapshotCleanup(snap)
  }

  function ListingHead(): seq<Event> {
    [Print(ModulesHeader), Call(OpenSnapshot(ModuleSnapshot))]
  }

  /** The listing's events after its header: the open call, then module lines only. */
  lemma ListingTail(tail: seq<Event>)
    requires forall i :: 0 <= i < |tail| ==> tail[i].Print? && tail[i].line.ModuleLine?
    ensures var rest := [Call(OpenSnapshot(ModuleSnapshot))] + tail;
            Print(ModulesHeader) !in rest && NoThreadCalls(rest)
  {
    var rest := [Call(OpenSnapshot(ModuleSnapshot))] + tail;
    forall i | 0 <= i < |rest|
      ensures rest[i] != Print(ModulesHeader) && !ThreadCall(rest[i])
    {
      if i > 0 {
        assert rest[i] == tail[i - 1];
      }
    }
  }

  lemma ListingHeaderOnce(lines: seq<Line>)
    requires forall i :: 0 <= i < |lines| ==> lines[i].ModuleLine?
    ensures Print(ModulesHeader) !in (ListingHead() + Prints(lines))[1..]
    ensures NoThreadCalls(ListingHead() + Prints(lines))
  {
    ListingOfTail(Prints(lines));
  }

  lemma ListingOfTail(tail: seq<Event>)
    requires forall i :: 0 <= i < |tail| ==> tail[i].Print? && tail[i].line.ModuleLine?
    ensures Print(ModulesHeader) !in (ListingHead() + tail)[1..]
    ensures NoThreadCalls(ListingHead() + tail)
  {
    var rest := [Call(OpenSnapshot(ModuleSnapshot))] + tail;
    ListingTail(tail);
    assert (ListingHead() + tail)[1..] == rest;
    assert ListingHead() + tail == [Print(ModulesHeader)] + rest;
  }

  lemma ListingHeadWithin()
    ensures LinesWithin(ListingHead(), {ModulesPart})
  {
  }

  lemma ListingWithin(lines: seq<Line>)
    requires forall i :: 0 <= i < |lines| ==> lines[i].ModuleLine?
    ensures LinesWithin(ListingHead() + Prints(lines), {ModulesPart})
  {
    assert forall i :: 0 <= i < |lines| ==> PartOf(lines[i]) == ModulesPart;
    var tail := Prints(lines);
    assert LinesWithin(tail, {ModulesPart}) by {
      PrintsWithin(lines, {ModulesPart});
    }
    ListingWithinOfTail(tail);
  }

  lemma ListingWithinOfTail(tail: seq<Event>)
    requires LinesWithin(tail, {ModulesPart})
    ensures LinesWithin(ListingHead() + tail, {ModulesPart})
  {
    ListingHeadWithin();
    LinesWithinAppend(ListingHead(), tail, {ModulesPart});
  }

  lemma AsWrittenShape(me: Identity, snap: Snapshot<ModuleEntry>)
    ensures var ev := ModulesSectionAsWritten(me, snap);
            && ev[0] == Print(ModulesHeader)
            && Print(ModulesHeader) !in ev[1..]
            && LinesWithin(ev, {ModulesPart})
            && NoThreadCalls(ev)
  {
    if snap.Taken? && |snap.entries| > 0 {
      var lines := ModuleLines(OwnModules(me.pid, snap.entries));
      ModulesSectionListing(me, snap);
      ListingHeaderOnce(lines);
      ListingWithin(lines);
    } else {
      ModulesSectionShort(me, snap);
    }
  }

  /** Without a listing the section is its header, then the failure when the snapshot was taken. */
  lemma ModulesSectionShort(me: Identity, snap: Snapshot<ModuleEntry>)
    requires !(snap.Taken? && |snap.entries| > 0)
    ensures ModulesSectionAsWritten(me, snap) == [Print(ModulesHeader)] + (if snap.Taken? then ModuleListFailure else [])
  {
  }

  lemma AsWrittenLines(me: Identity, snap: Snapshot<ModuleEntry>)
    requires snap.Taken? && |snap.entries| > 0
    ensures PrintedLines(ModulesSectionAsWritten(me, snap)) == [ModulesHeader] + ModuleLines(OwnModules(me.pid, snap.entries))
  {
    ModulesSectionListing(me, snap);
    ListingPrinted(ModuleLines(OwnModules(me.pid, snap.entries)));
  }

  /** A module snapshot that lists anything is rendered as a listing. */
  lemma ModulesSectionListing(me: Identity, snap: Snapshot<ModuleEntry>)
    requires snap.Taken? && |snap.entries| > 0
    ensures ModulesSectionAsWritten(me, snap) == ListingHead() + Prints(ModuleLines(OwnModules(me.pid, snap.entries)))
  {
  }

  lemma ListingPrinted(lines: seq<Line>)
    ensures PrintedLines(ListingHead() + Prints(lines)) == [ModulesHeader] + lines
  {
    ListingHeadPrinted();
    PrintedLinesAppend(ListingHead(), Prints(lines));
    PrintedLinesOfPrints(lines);
  }

  lemma ListingHeadPrinted()
    ensures PrintedLines(ListingHead()) == [ModulesHeader]
  {
    var lh := ListingHead();
    assert lh[1..][1..] == [];
    assert PrintedLines(lh[1..]) == PrintedLines(lh[1..][1..]);
  }

  lemma ModulesListErrorHandles(h: Handles)
    requires h.suspended.None? && ModuleSnapshot !in h.snapshots
    ensures Track(ModuleListFailure, h) == Some(h)
  {
    var tail := ModuleListFailure;
    var held := h.(snapshots := h.snapshots + {ModuleSnapshot});
    assert tail[1..][1..][1..] == [];
    assert held.snapshots - {ModuleSnapshot} == h.snapshots;
    assert Track(tail, h) == Track(tail[1..], held);
    assert Track(tail[1..], held) == Track(tail[1..][1..], h);
    assert Track(tail[1..][1..], h) == Track(tail[1..][1..][1..], h);
  }

  lemma ModulesListingHandles(lines: seq<Line>, h: Handles)
    requires h.suspended.None? && ModuleSnapshot !in h.snapshots
    ensures Track(ListingHead() + Prints(lines), h) == Some(h.(snapshots := h.snapshots + {ModuleSnapshot}))
  {
    var held := h.(snapshots := h.snapshots + {ModuleSnapshot});
    var lh := ListingHead();
    assert lh[1..][1..] == [];
    assert Track(lh, h) == Track(lh[1..], h);
    assert Track(lh[1..], h) == Track(lh[1..][1..], held);
    TrackAppend(lh, Prints(lines), h);
    TrackPrints(lines, held);
  }

  /**
   As written, the module section closes its snapshot handle only when the
   list is empty; once `Module32First` succeeds the handle stays open.
   */
  lemma AsWrittenHandles(me: Identity, snap: Snapshot<ModuleEntry>, h: Handles)
    requires h.suspended.None? && ModuleSnapshot !in h.snapshots
    ensures Track(ModulesSectionAsWritten(me, snap), h) == Some(h.(snapshots := h.snapshots + ModuleSnapshotLeftOpen(snap)))
  {
    if snap.Taken? && |snap.entries| > 0 {
      ModulesSectionListing(me, snap);
      ModulesListingHandles(ModuleLines(OwnModules(me.pid, snap.entries)), h);
    } else {
      var head := [Print(ModulesHeader)];
      var tail := if snap.Taken? then ModuleListFailure else [];
      ModulesSectionShort(me, snap);
      TrackAppend(head, tail, h);
      assert head[1..] == [];
      assert Track(tail, h) == Some(h) by {
        if snap.Taken? {
          ModulesListErrorHandles(h);
        }
      }
      assert h.(snapshots := h.snapshots + {}) == h;
    }
  }

  /** One module of this process is enough for the handle to be left open. */
  lemma ModuleSnapshotLeaks(me: Identity, e: ModuleEntry)
    ensures var ev := ModulesSectionAsWritten(me, Taken([e]));
            && Track(ev, Idle) == Some(Handles(None, None, {ModuleSnapshot}))
            && Call(CloseSnapshot(ModuleSnapshot)) !in ev
  {
    AsWrittenHandles(me, Taken([e]), Idle);
    ModulesSectionListing(me, Taken([e]));
    assert Idle.(snapshots := Idle.snapshots + {ModuleSnapshot}) == Handles(None, None, {ModuleSnapshot});
  }

  /**
   The module section prints its header once, then lines of its own part
   only, and makes no call on any thread.
   */
  lemma ModulesSectionShape(me: Identity, snap: Snapshot<ModuleEntry>)
    ensures var ev := ModulesSection(me, snap);
            && ev[0] == Print(ModulesHeader)
            && Print(ModulesHeader) !in ev[1..]
            && LinesWithin(ev, {ModulesPart})
            && NoThreadCalls(ev)
  {
    var w, c := ModulesSectionAsWritten(me, snap), SnapshotCleanup(snap);
    AsWrittenShape(me, snap);
    assert (w + c)[1..] == w[1..] + c;
    LinesWithinAppend(w, c, {ModulesPart});
    NoThreadCallsAppend(w, c);
  }

  /**
   The module section lists exactly the modules of this process, in snapshot
   order, once the snapshot lists any module at all.
   */
  lemma ModulesSectionLines(me: Identity, snap: Snapshot<ModuleEntry>)
    requires snap.Taken? && |snap.entries| > 0
    ensures PrintedLines(ModulesSection(me, snap)) == [ModulesHeader] + ModuleLines(OwnModules(me.pid, snap.entries))
  {
    var w, c := ModulesSectionAsWritten(me, snap), SnapshotCleanup(snap);
    AsWrittenLines(me, snap);
    PrintedLinesAppend(w, c);
    PrintedLinesOfCalls(c);
    assert PrintedLines(w) + [] == PrintedLines(w);
  }

  /** Closing the snapshot prints nothing: both sections print the same lines. */
  lemma ModulesSectionPrints(me: Identity, snap: Snapshot<ModuleEntry>)
    ensures PrintedLines(ModulesSection(me, snap)) == PrintedLines(ModulesSectionAsWritten(me, snap))
  {
    var w, c := ModulesSectionAsWritten(me, snap), SnapshotCleanup(snap);
    PrintedLinesAppend(w, c);
    PrintedLinesOfCalls(c);
    assert PrintedLines(w) + [] == PrintedLines(w);
  }

  /** With the cleanup in place every path closes the snapshot handle it opened. */
  lemma ModulesSectionHandles(me: Identity, snap: Snapshot<ModuleEntry>, h: Handles)
    requires h.suspended.None? && ModuleSnapshot !in h.snapshots
    ensures Track(ModulesSection(me, snap), h) == Some(h)
  {
    var w, c := ModulesSectionAsWritten(me, snap), SnapshotCleanup(snap);
    AsWrittenHandles(me, snap, h);
    TrackAppend(w, c, h);
    CleanupTrack(snap, h);
  }

  /** The cleanup closes exactly the handle the section as written leaves open. */
  lemma CleanupTrack(snap: Snapshot<ModuleEntry>, h: Handles)
    requires ModuleSnapshot !in h.snapshots
    ensures Track(SnapshotCleanup(snap), h.(snapshots := h.snapshots + ModuleSnapshotLeftOpen(snap))) == Some(h)
  {
    var c := SnapshotCleanup(snap);
    var held := h.(snapshots := h.snapshots + ModuleSnapshotLeftOpen(snap));
    if snap.Taken? && |snap.entries| > 0 {
      assert c[1..] == [];
      assert held.(snapshots := held.snapshots - {ModuleSnapshot}) == h;
      assert Track(c, held) == Track(c[1..], h);
    } else {
      assert held == h;
    }
  }
}

=== FILE: exception_codes.dfy ===
/**
 Names of the structured-exception codes a crash report can show
 (`bli_windows_get_exception_description`). The numeric codes are the
 `EXCEPTION_*` values of the Windows SDK header `winnt.h`.
 */
module ExceptionCodes {
  import opened Options
  import opened Win32Types

  datatype NamedCode = NamedCode(code: Dword, name: string)

  const UnknownException: string := "UNKNOWN EXCEPTION"

  /** The twenty codes the classifier recognises, in the order of its `switch`. */
  const KnownExceptions: seq<NamedCode> := [
    NamedCode(0xC0000005, "EXCEPTION_ACCESS_VIOLATION"),
    NamedCode(0xC000008C, "EXCEPTION_ARRAY_BOUNDS_EXCEEDED"),
    NamedCode(0x80000003, "EXCEPTION_BREAKPOINT"),
    NamedCode(0x80000002, "EXCEPTION_DATATYPE_MISALIGNMENT"),
    NamedCode(0xC000008D, "EXCEPTION_FLT_DENORMAL_OPERAND"),
    NamedCode(0xC000008E, "EXCEPTION_FLT_DIVIDE_BY_ZERO"),
    NamedCode(0xC000008F, "EXCEPTION_FLT_INEXACT_RESULT"),
    NamedCode(0xC0000090, "EXCEPTION_FLT_INVALID_OPERATION"),
    NamedCode(0xC0000091, "EXCEPTION_FLT_OVERFLOW"),
    NamedCode(0xC0000092, "EXCEPTION_FLT_STACK_CHECK"),
    NamedCode(0xC0000093, "EXCEPTION_FLT_UNDERFLOW"),
    NamedCode(0xC000001D, "EXCEPTION_ILLEGAL_INSTRUCTION"),
    NamedCode(0xC0000006, "EXCEPTION_IN_PAGE_ERROR"),
    NamedCode(0xC0000094, "EXCEPTION_INT_DIVIDE_BY_ZERO"),
    NamedCode(0xC0000095, "EXCEPTION_INT_OVERFLOW"),
    NamedCode(0xC0000026, "EXCEPTION_INVALID_DISPOSITION"),
    NamedCode(0xC0000025, "EXCEPTION_NONCONTINUABLE_EXCEPTION"),
    NamedCode(0xC0000096, "EXCEPTION_PRIV_INSTRUCTION"),
    NamedCode(0x80000004, "EXCEPTION_SINGLE_STEP"),
    NamedCode(0xC00000FD, "EXCEPTION_STACK_OVERFLOW")
  ]

  /** True when some entry of `table` has code `code`. */
  predicate Listed(table: seq<NamedCode>, code: Dword) {
    exists i :: 0 <= i < |table| && table[i].code == code
  }

  /** No code appears twice, so a `switch` over the table is well defined. */
  predicate DistinctCodes(table: seq<NamedCode>) {
    forall i, j :: 0 <= i < j < |table| ==> table[i].code != table[j].code
  }

  /** The first entry of `table` for `code`, as a `switch` selects its case. */
  function Lookup(table: seq<NamedCode>, code: Dword): Option<string> {
    if |table| == 0 then None
    else if table[0].code == code then Some(table[0].name)
    else Lookup(table[1..], code)
  }

  /**
   The lookup finds a name exactly for listed codes, the name is that of an
   entry for the code, and with distinct codes it is the name of every such entry.
   */
  lemma {:induction false} LookupFinds(table: seq<NamedCode>, code: Dword)
    ensures Lookup(table, code).None? <==> !Listed(table, code)
    ensures Lookup(table, code).Some? ==>
              exists i :: 0 <= i < |table| && table[i] == NamedCode(code, Lookup(table, code).value)
    ensures Lookup(table, code).Some? && DistinctCodes(table) ==>
              forall i :: 0 <= i < |table| && table[i].code == code ==> table[i].name == Lookup(table, code).value
  {
    if |table| > 0 && table[0].code != code {
      var r := Lookup(table[1..], code);
      LookupFinds(table[1..], code);
      if r.Some? {
        var i :| 0 <= i < |table[1..]| && table[1..][i] == NamedCode(code, r.value);
        assert table[i + 1] == NamedCode(code, r.value);
      }
      if Listed(table, code) {
        var i :| 0 <= i < |table| && table[i].code == code;
        assert table[1..][i - 1].code == code;
      }
      if r.Some? && DistinctCodes(table) {
        forall i | 0 <= i < |table| && table[i].code == code
          ensures table[i].name == r.value
        {
          assert table[1..][i - 1] == table[i];
        }
      }
    }
  }

  /** The classifier: the name of a recognised code, otherwise the generic fallback. */
  function Describe(code: Dword): (name: string)
    ensures name != ""
  {
    KnownNamesNamed();
    LookupFinds(KnownExceptions, code);
    match Lookup(KnownExceptions, code)
    case Some(n) => n
    case None => UnknownException
  }

  lemma KnownCodesDistinct()
    ensures DistinctCodes(KnownExceptions)
  {
  }

  lemma KnownNamesNamed()
    ensures forall i :: 0 <= i < |KnownExceptions| ==> |KnownExceptions[i].name| > 0 && KnownExceptions[i].name[0] == 'E'
  {
  }

  /** The case labels are distinct, and every listed code maps to its own name. */
  lemma DescribeKnown(i: nat)
    requires i < |KnownExceptions|
    ensures DistinctCodes(KnownExceptions)
    ensures Describe(KnownExceptions[i].code) == KnownExceptions[i].name
  {
    KnownCodesDistinct();
    LookupFinds(KnownExceptions, KnownExceptions[i].code);
  }

  /**
   The classifier is total: a listed code gets the name its table entry gives
   it, and exactly the unlisted codes fall back to the generic description.
   */
  lemma DescribeClassifies(code: Dword)
    ensures |KnownExceptions| == 20
    ensures Listed(KnownExceptions, code) ==>
              exists i :: 0 <= i < |KnownExceptions| && KnownExceptions[i] == NamedCode(code, Describe(code))
    ensures Describe(code) == UnknownException <==> !Listed(KnownExceptions, code)
  {
    KnownNamesNamed();
    LookupFinds(KnownExceptions, code);
    if Listed(KnownExceptions, code) {
      var i :| 0 <= i < |KnownExceptions| && KnownExceptions[i].code == code;
      DescribeKnown(i);
      assert KnownExceptions[i].name[0] != UnknownException[0];
    }
  }
}

=== FILE: exception_record.dfy ===
/**
 The exception section of a report (`bli_windows_system_backtrace_exception_record`):
 one block per record of a chain of nested exception records.
 */
module ExceptionRecords {
  import opened Options
  import opened Win32Types
  import opened CrashEvents
  import opened ExceptionCodes
  import opened StackWalk

  /**
   An `EXCEPTION_RECORD`: `parameters` holds the first `NumberParameters`
   entries of `ExceptionInformation`, and `nested` the chained record, if any.
   */
  datatype ExceptionRecord = ExceptionRecord(
    code: Dword, address: nat, flags: Dword, parameters: seq<nat>, nested: Option<ExceptionRecord>)

  /** The records of a chain, outermost first. */
  function Chain(r: ExceptionRecord): (c: seq<ExceptionRecord>)
    ensures |c| >= 1 && c[0] == r
  {
    match r.nested
    case None => [r]
    case Some(n) => [r] + Chain(n)
  }

  function ParameterLines(parameters: seq<nat>): (lines: seq<Line>)
    ensures |lines| == |parameters|
    ensures forall i :: 0 <= i < |parameters| ==> lines[i] == ExceptionParameterLine(i, parameters[i])
  {
    seq(|parameters|, i requires 0 <= i < |parameters| => ExceptionParameterLine(i, parameters[i]))
  }

  /** The five field lines of a record: code description, address, module, flags, parameter count. */
  function FieldLines(r: ExceptionRecord, sym: Symbolizer): (f: seq<Line>)
    ensures |f| == 5 && f[4] == ExceptionParameterCountLine(|r.parameters|)
    ensures forall j :: 0 <= j < 5 ==>
              !f[j].ExceptionRecordHeader? && !f[j].ExceptionParameterLine? && !f[j].SectionBreak?
              && PartOf(f[j]) == ExceptionPart
  {
    var f := [ ExceptionCodeLine(Describe(r.code)),
               ExceptionAddressLine(r.address),
               ExceptionModuleLine(ModuleName(sym, r.address)),
               ExceptionFlagsLine(r.flags as nat),
               ExceptionParameterCountLine(|r.parameters|) ];
    assert forall j :: 0 <= j < 5 ==>
             !f[j].ExceptionRecordHeader? && !f[j].ExceptionParameterLine? && !f[j].SectionBreak?
             && PartOf(f[j]) == ExceptionPart by {
      forall j | 0 <= j < 5
        ensures !f[j].ExceptionRecordHeader? && !f[j].ExceptionParameterLine? && !f[j].SectionBreak?
                && PartOf(f[j]) == ExceptionPart
      {
        assert j == 0 || j == 1 || j == 2 || j == 3 || j == 4;
      }
    }
    f
  }

  /** The lines of one record before its nested record: header, the five fields, the parameters. */
  function BlockHead(r: ExceptionRecord, nested: bool, sym: Symbolizer): seq<Line> {
    [ExceptionRecordHeader(nested)] + FieldLines(r, sym) + ParameterLines(r.parameters)
  }

  /** The first six lines of a block, field by field. */
  lemma BlockFields(r: ExceptionRecord, nested: bool, sym: Symbolizer)
    ensures var b := BlockHead(r, nested, sym);
            && |b| == 6 + |r.parameters|
            && b[0] == ExceptionRecordHeader(nested)
            && b[1] == ExceptionCodeLine(Describe(r.code))
            && b[2] == ExceptionAddressLine(r.address)
            && b[3] == ExceptionModuleLine(ModuleName(sym, r.address))
            && b[4] == ExceptionFlagsLine(r.flags as nat)
            && b[5] == ExceptionParameterCountLine(|r.parameters|)
  {
    var f, ps := FieldLines(r, sym), ParameterLines(r.parameters);
    var b := [ExceptionRecordHeader(nested)] + f + ps;
    assert b[1] == f[0] && b[2] == f[1] && b[3] == f[2] && b[4] == f[3] && b[5] == f[4];
  }

  /**
   Each block shows its own record: the header, the classifier's description
   of its code, its address, the module owning that address, its flags and
   its parameter count, then exactly `NumberParameters` parameter lines with
   indices 0..N-1 in order. The description is the generic one exactly when
   the code is not listed.
   */
  lemma BlockParameters(r: ExceptionRecord, nested: bool, sym: Symbolizer)
    ensures var b, n := BlockHead(r, nested, sym), |r.parameters|;
            && |b| == 6 + n
            && b[0] == ExceptionRecordHeader(nested)
            && b[1] == ExceptionCodeLine(Describe(r.code))
            && (b[1].description == UnknownException <==> !Listed(KnownExceptions, r.code))
            && b[2] == ExceptionAddressLine(r.address)
            && b[3] == ExceptionModuleLine(ModuleName(sym, r.address))
            && b[4] == ExceptionFlagsLine(r.flags as nat)
            && b[5] == ExceptionParameterCountLine(n)
            && (forall j :: 0 <= j < |b| ==> (b[j].ExceptionParameterLine? <==> 6 <= j))
            && (forall i :: 0 <= i < n ==> b[6 + i] == ExceptionParameterLine(i, r.parameters[i]))
  {
    BlockFields(r, nested, sym);
    var f, ps := FieldLines(r, sym), ParameterLines(r.parameters);
    var b := [ExceptionRecordHeader(nested)] + f + ps;
    assert b[1].description == UnknownException <==> !Listed(KnownExceptions, r.code) by {
      DescribeClassifies(r.code);
    }
    forall j | 0 <= j < |b|
      ensures b[j].ExceptionParameterLine? <==> 6 <= j
    {
      if j == 0 {
      } else if j < 6 {
        assert b[j] == f[j - 1];
      } else {
        assert b[j] == ps[j - 6];
      }
    }
  }

  /** The recursive renderer: a nested record's block sits inside its parent's. */
  function RecordLines(r: ExceptionRecord, nested: bool, sym: Symbolizer): seq<Line>
    decreases r, 1
  {
    BlockHead(r, nested, sym) + Inner(r, sym) + [SectionBreak]
  }

  /** The lines inside a record's block: those of its nested record, if any. */
  function Inner(r: ExceptionRecord, sym: Symbolizer): seq<Line>
    decreases r, 0
  {
    match r.nested case None => [] case Some(n) => RecordLines(n, true, sym)
  }

  /** The heads of a chain's blocks, the first marked `nested` as given, the rest nested. */
  function Heads(chain: seq<ExceptionRecord>, nested: bool, sym: Symbolizer): seq<Line> {
    if |chain| == 0 then [] else BlockHead(chain[0], nested, sym) + Heads(chain[1..], true, sym)
  }

  function Breaks(n: nat): (lines: seq<Line>)
    ensures |lines| == n
    ensures forall i :: 0 <= i < n ==> lines[i] == SectionBreak
  {
    seq(n, _ => SectionBreak)
  }

  /**
   The recursion flattens: rendering a chain of K records gives the K block
   heads in chain order, each listing its own code, address, module, flags and
   parameters, followed by K closing breaks.
   */
  lemma {:induction false} RecordLinesFlatten(r: ExceptionRecord, nested: bool, sym: Symbolizer)
    ensures RecordLines(r, nested, sym) == Heads(Chain(r), nested, sym) + Breaks(|Chain(r)|)
    decreases r
  {
    match r.nested
    case None =>
      assert Chain(r)[1..] == [];
    case Some(n) =>
      var head, hs, bs := BlockHead(r, nested, sym), Heads(Chain(n), true, sym), Breaks(|Chain(n)|);
      RecordLinesFlatten(n, true, sym);
      Regroup(head, hs, bs, [SectionBreak]);
      assert Heads(Chain(r), nested, sym) == head + hs by {
        assert Chain(r)[1..] == Chain(n);
      }
      assert bs + [SectionBreak] == Breaks(|Chain(r)|);
  }

  lemma Regroup(a: seq<Line>, b: seq<Line>, c: seq<Line>, d: seq<Line>)
    ensures a + (b + c) + d == (a + b) + (c + d)
  {
  }

  /** The `nested` flags of the header lines, in order. */
  function HeaderFlags(lines: seq<Line>): seq<bool> {
    if |lines| == 0 then []
    else (if lines[0].ExceptionRecordHeader? then [lines[0].nested] else []) + HeaderFlags(lines[1..])
  }

  lemma {:induction false} HeaderFlagsAppend(a: seq<Line>, b: seq<Line>)
    ensures HeaderFlags(a + b) == HeaderFlags(a) + HeaderFlags(b)
    decreases |a|
  {
    if |a| > 0 {
      assert (a + b)[0] == a[0] && (a + b)[1..] == a[1..] + b;
      HeaderFlagsAppend(a[1..], b);
    } else {
      assert a + b == b;
    }
  }

  lemma {:induction false} HeaderFlagsNone(lines: seq<Line>)
    requires forall i :: 0 <= i < |lines| ==> !lines[i].ExceptionRecordHeader?
    ensures HeaderFlags(lines) == []
    decreases |lines|
  {
    if |lines| > 0 {
      HeaderFlagsNone(lines[1..]);
    }
  }

  lemma BlockHeadFlags(r: ExceptionRecord, nested: bool, sym: Symbolizer)
    ensures HeaderFlags(BlockHead(r, nested, sym)) == [nested]
  {
    var first := [ExceptionRecordHeader(nested)];
    var rest := FieldLines(r, sym) + ParameterLines(r.parameters);
    assert BlockHead(r, nested, sym) == first + rest;
    HeaderFlagsNone(rest);
    HeaderFlagsAppend(first, rest);
    assert HeaderFlags(first) == [nested] + HeaderFlags(first[1..]);
  }

  /** A block whose head carries one header and whose inside carries `k` nested ones. */
  lemma BlockFlags(head: seq<Line>, inner: seq<Line>, nested: bool, k: nat)
    requires HeaderFlags(head) == [nested] && HeaderFlags(inner) == seq(k, _ => true)
    ensures HeaderFlags(head + inner + [SectionBreak]) == [nested] + seq(k, _ => true)
  {
    HeaderFlagsAppend(head + inner, [SectionBreak]);
    HeaderFlagsAppend(head, inner);
    HeaderFlagsNone([SectionBreak]);
  }

  /**
   A chain of K records renders exactly K "Exception Record:" headers: the
   first as given, the K-1 after it prefixed "Nested ".
   */
  lemma {:induction false} RecordHeaders(r: ExceptionRecord, nested: bool, sym: Symbolizer)
    ensures HeaderFlags(RecordLines(r, nested, sym)) == [nested] + seq(|Chain(r)| - 1, _ => true)
    decreases r
  {
    BlockHeadFlags(r, nested, sym);
    match r.nested
    case None =>
      assert HeaderFlags(Inner(r, sym)) == seq(0, _ => true);
      BlockFlags(BlockHead(r, nested, sym), Inner(r, sym), nested, 0);
    case Some(n) =>
      RecordHeaders(n, true, sym);
      assert [true] + seq(|Chain(n)| - 1, _ => true) == seq(|Chain(n)|, _ => true);
      BlockFlags(BlockHead(r, nested, sym), Inner(r, sym), nested, |Chain(n)|);
  }

  /** Every line of a block head belongs to the exception part. */
  lemma BlockHeadParts(r: ExceptionRecord, nested: bool, sym: Symbolizer)
    ensures forall i :: 0 <= i < |BlockHead(r, nested, sym)| ==> PartOf(BlockHead(r, nested, sym)[i]) == ExceptionPart
  {
    var head, f, params := BlockHead(r, nested, sym), FieldLines(r, sym), ParameterLines(r.parameters);
    forall i | 0 <= i < |head|
      ensures PartOf(head[i]) == ExceptionPart
    {
      if 0 < i < 6 {
        assert head[i] == f[i - 1];
      } else if 6 <= i {
        assert head[i] == params[i - 6];
      }
    }
  }

  lemma BlockParts(head: seq<Line>, inner: seq<Line>)
    requires forall i :: 0 <= i < |head| ==> PartOf(head[i]) == ExceptionPart
    requires forall i :: 0 <= i < |inner| ==> PartOf(inner[i]) in {ExceptionPart, BreakPart}
    ensures var lines := head + inner + [SectionBreak];
            forall i :: 0 <= i < |lines| ==> PartOf(lines[i]) in {ExceptionPart, BreakPart}
  {
    var lines := head + inner + [SectionBreak];
    forall i | 0 <= i < |lines|
      ensures PartOf(lines[i]) in {ExceptionPart, BreakPart}
    {
      if i < |head| {
        assert lines[i] == head[i];
      } else if i < |head| + |inner| {
        assert lines[i] == inner[i - |head|];
      }
    }
  }

  /** The exception section prints nothing but record lines and their closing breaks. */
  lemma {:induction false} RecordLinesParts(r: ExceptionRecord, nested: bool, sym: Symbolizer)
    ensures forall i :: 0 <= i < |RecordLines(r, nested, sym)| ==>
              PartOf(RecordLines(r, nested, sym)[i]) in {ExceptionPart, BreakPart}
    decreases r
  {
    if r.nested.Some? {
      RecordLinesParts(r.nested.value, true, sym);
      assert Inner(r, sym) == RecordLines(r.nested.value, true, sym);
    }
    BlockHeadParts(r, nested, sym);
    BlockParts(BlockHead(r, nested, sym), Inner(r, sym));
  }
}

=== FILE: handle_protocol.dfy ===
/**
 The discipline the report keeps with thread and snapshot handles, as a state
 machine over its events. At most one foreign thread is open and at most one
 is suspended at a time; a thread is suspended only through its open handle,
 its context is read only while it is suspended, and a handle is closed only
 after the thread has been resumed.
 */
module HandleProtocol {
  import opened Options
  import opened CrashEvents

  datatype Handles = Handles(openThread: Option<nat>, suspended: Option<nat>, snapshots: set<SnapshotKind>)

  const Idle := Handles(None, None, {})

  /** The state after one event, or None when the event breaks the discipline. */
  function Next(h: Handles, e: Event): Option<Handles> {
    match e
    case Print(_) => Some(h)
    case Call(a) =>
      match a
      case OpenThread(x) =>
        if h.openThread.None? then Some(h.(openThread := Some(x))) else None
      case SuspendThread(x) =>
        if h.openThread == Some(x) && h.suspended.None? then Some(h.(suspended := Some(x))) else None
      case GetThreadContext(x) =>
        if h.suspended == Some(x) then Some(h) else None
      case ResumeThread(x) =>
        if h.suspended == Some(x) then Some(h.(suspended := None)) else None
      case CloseThread(x) =>
        if h.openThread == Some(x) && h.suspended.None? then Some(h.(openThread := None)) else None
      case OpenSnapshot(k) =>
        if k !in h.snapshots then Some(h.(snapshots := h.snapshots + {k})) else None
      case CloseSnapshot(k) =>
        if k in h.snapshots then Some(h.(snapshots := h.snapshots - {k})) else None
      case CaptureSelf =>
        if h.suspended.None? then Some(h) else None
      case _ => Some(h)
  }

  /** Runs the state machine over a whole event sequence. */
  function Track(ev: seq<Event>, h: Handles): Option<Handles> {
    if |ev| == 0 then Some(h)
    else
      match Next(h, ev[0])
      case None => None
      case Some(h') => Track(ev[1..], h')
  }

  function Then(r: Option<Handles>, ev: seq<Event>): Option<Handles> {
    match r
    case None => None
    case Some(h) => Track(ev, h)
  }

  /** Tracking a concatenation tracks the second part from where the first ended. */
  lemma {:induction false} TrackAppend(a: seq<Event>, b: seq<Event>, h: Handles)
    ensures Track(a + b, h) == Then(Track(a, h), b)
    decreases |a|
  {
    if |a| > 0 {
      assert (a + b)[0] == a[0];
      assert (a + b)[1..] == a[1..] + b;
      match Next(h, a[0])
      case None =>
      case Some(h') => TrackAppend(a[1..], b, h');
    } else {
      assert a + b == b;
    }
  }

  /** Events that leave every handle as it is while no thread is suspended. */
  predicate Inert(e: Event) {
    e.Print? || !(ThreadCall(e) || e.action.OpenSnapshot? || e.action.CloseSnapshot?)
  }

  lemma {:induction false} TrackInert(ev: seq<Event>, h: Handles)
    requires h.suspended.None?
    requires forall i :: 0 <= i < |ev| ==> Inert(ev[i])
    ensures Track(ev, h) == Some(h)
    decreases |ev|
  {
    if |ev| > 0 {
      TrackInert(ev[1..], h);
    }
  }

  /** Printing never touches a handle. */
  lemma {:induction false} TrackPrints(lines: seq<Line>, h: Handles)
    ensures Track(Prints(lines), h) == Some(h)
    decreases |lines|
  {
    if |lines| > 0 {
      assert Prints(lines)[1..] == Prints(lines[1..]);
      TrackPrints(lines[1..], h);
    }
  }
}

=== FILE: module_version.dfy ===
/**
 The version column of the loaded-modules list (`bli_windows_get_module_version`).
 The version-resource calls are oracles: `VersionQuery` is what they return for
 one module file.
 */
module ModuleVersion {
  import opened Win32Types
  import opened Decimal

  /** The fields of `VS_FIXEDFILEINFO` the report reads. */
  datatype FixedFileInfo = FixedFileInfo(signature: Dword, fileVersionMS: Dword, fileVersionLS: Dword)

  /** The outcome of `GetFileVersionInfoSize`, `GetFileVersionInfo` and `VerQueryValue("\\")`. */
  datatype VersionQuery =
    | NoVersionInfo           // GetFileVersionInfoSize returned 0
    | VersionInfoUnreadable   // GetFileVersionInfo failed
    | RootBlockMissing        // VerQueryValue failed
    | RootBlockEmpty          // VerQueryValue returned a zero size
    | RootBlock(info: FixedFileInfo)

  /** The magic value `dwSignature` must hold for the block to be trusted. */
  const FixedFileInfoSignature: Dword := 0xfeef04bd

  predicate Trusted(q: VersionQuery) {
    q.RootBlock? && q.info.signature == FixedFileInfoSignature
  }

  /** The version string: the buffer stays empty unless a signed block was read. */
  function ModuleVersionString(q: VersionQuery): (s: string)
    ensures s == "" <==> !Trusted(q)
  {
    if Trusted(q) then
      var ms := q.info.fileVersionMS;
      var ls := q.info.fileVersionLS;
      ToDecimal(HighWord(ms)) + ("." + (ToDecimal(LowWord(ms)) + ("."
        + (ToDecimal(HighWord(ls)) + ("." + ToDecimal(LowWord(ls)))))))
    else
      ""
  }

  /** Cuts a string at every '.', keeping empty pieces. */
  function SplitDots(s: string): (parts: seq<string>)
    ensures |parts| >= 1
    ensures forall i :: 0 <= i < |parts| ==> '.' !in parts[i]
  {
    if |s| == 0 then [""]
    else if s[0] == '.' then [""] + SplitDots(s[1..])
    else
      var rest := SplitDots(s[1..]);
      [[s[0]] + rest[0]] + rest[1..]
  }

  lemma {:induction false} SplitDotFree(x: string, y: string)
    requires '.' !in x
    ensures SplitDots(x + y) == [x + SplitDots(y)[0]] + SplitDots(y)[1..]
    decreases |x|
  {
    if |x| > 0 {
      assert (x + y)[1..] == x[1..] + y;
      SplitDotFree(x[1..], y);
      assert [x[0]] + (x[1..] + SplitDots(y)[0]) == x + SplitDots(y)[0];
    } else {
      assert x + y == y;
      assert x + SplitDots(y)[0] == SplitDots(y)[0];
      assert [SplitDots(y)[0]] + SplitDots(y)[1..] == SplitDots(y);
    }
  }

  /** Joining a dot-free field to the rest with '.' puts it first in the split. */
  lemma SplitField(x: string, y: string)
    requires '.' !in x
    ensures SplitDots(x + ("." + y)) == [x] + SplitDots(y)
  {
    var dy := "." + y;
    assert dy[0] == '.' && dy[1..] == y;
    assert SplitDots(dy) == [""] + SplitDots(y);
    SplitDotFree(x, dy);
    assert x + "" == x;
  }

  lemma SplitSingle(x: string)
    requires '.' !in x
    ensures SplitDots(x) == [x]
  {
    SplitDotFree(x, "");
    assert x + "" == x;
  }

  /** Four dot-free fields joined with '.' split back into those four fields. */
  lemma SplitFour(a: string, b: string, c: string, d: string)
    requires '.' !in a && '.' !in b && '.' !in c && '.' !in d
    ensures SplitDots(a + ("." + (b + ("." + (c + ("." + d)))))) == [a, b, c, d]
  {
    SplitSingle(d);
    SplitField(c, d);
    SplitField(b, c + ("." + d));
    SplitField(a, b + ("." + (c + ("." + d))));
  }

  /**
   A trusted block prints as four dot-separated decimal fields holding the high
   and low 16 bits of the two version words; reading the fields back
   reassembles both words.
   */
  lemma VersionFields(q: VersionQuery)
    requires Trusted(q)
    ensures var parts := SplitDots(ModuleVersionString(q));
            && |parts| == 4
            && (forall i :: 0 <= i < 4 ==> AllDigits(parts[i]))
            && ParseDecimal(parts[0]) == HighWord(q.info.fileVersionMS)
            && ParseDecimal(parts[1]) == LowWord(q.info.fileVersionMS)
            && ParseDecimal(parts[2]) == HighWord(q.info.fileVersionLS)
            && ParseDecimal(parts[3]) == LowWord(q.info.fileVersionLS)
            && MakeDword(ParseDecimal(parts[0]), ParseDecimal(parts[1])) == q.info.fileVersionMS
            && MakeDword(ParseDecimal(parts[2]), ParseDecimal(parts[3])) == q.info.fileVersionLS
  {
    var ms := q.info.fileVersionMS;
    var ls := q.info.fileVersionLS;
    var a, b, c, d := ToDecimal(HighWord(ms)), ToDecimal(LowWord(ms)), ToDecimal(HighWord(ls)), ToDecimal(LowWord(ls));
    SplitFour(a, b, c, d);
    var parts := [a, b, c, d];
    assert SplitDots(ModuleVersionString(q)) == parts;
    assert forall i :: 0 <= i < 4 ==> AllDigits(parts[i]);
    ParseToDecimal(HighWord(ms));
    ParseToDecimal(LowWord(ms));
    ParseToDecimal(HighWord(ls));
    ParseToDecimal(LowWord(ls));
    WordsReassemble(ms);
    WordsReassemble(ls);
  }

  /** The string never exceeds 23 characters, so the `MAX_PATH` buffer never truncates it. */
  lemma VersionFitsBuffer(q: VersionQuery)
    ensures |ModuleVersionString(q)| <= 23 < MaxPath
  {
    if Trusted(q) {
      assert Pow10(5) == 100000 by {
        assert Pow10(1) == 10;
        assert Pow10(2) == 100;
        assert Pow10(3) == 1000;
        assert Pow10(4) == 10000;
      }
      ToDecimalLength(HighWord(q.info.fileVersionMS), 5);
      ToDecimalLength(LowWord(q.info.fileVersionMS), 5);
      ToDecimalLength(HighWord(q.info.fileVersionLS), 5);
      ToDecimalLength(LowWord(q.info.fileVersionLS), 5);
    }
  }
}

=== FILE: options.dfy ===
/** The Some/None datatype used wherever a Win32 lookup may come back empty. */
module Options {

  datatype Option<+T> = None | Some(value: T)
}

=== FILE: stack_walk.dfy ===
/**
 Walking one thread's stack (`BLI_windows_system_backtrace_run_trace`) and
 sampling a thread for it (`bli_windows_system_backtrace_stack_thread`).

 `StackWalk64` is an oracle: the sequence of its answers for one context, each
 either a failure or the program counter of the next frame; once the sequence
 is used up the unwinder is taken to fail. The architecture-specific set-up of
 the first frame from the context registers only decides which sequence that
 is, so it is not modelled further.
 */
module StackWalk {
  import opened Options
  import opened CrashEvents
  import opened HandleProtocol

  datatype Step = UnwindFailed | UnwoundTo(pc: nat)

  /**
   The address-lookup oracles: `GetModuleHandleEx` + `GetModuleFileName` +
   `PathStripPath` (file name of the owning module), `SymFromAddr` and
   `SymGetLineFromAddr`, each a partial map from address to answer.
   */
  datatype Symbolizer = Symbolizer(moduleNames: map<nat, string>, symbols: map<nat, Symbol>, lines: map<nat, SourceLine>)

  /** `bli_windows_get_module_name`: the buffer stays empty when no module owns the address. */
  function ModuleName(sym: Symbolizer, address: nat): string {
    if address in sym.moduleNames then sym.moduleNames[address] else ""
  }

  /** The frame printed for program counter `pc`. */
  function ResolveFrame(sym: Symbolizer, pc: nat): Frame {
    if pc in sym.symbols then
      Frame(pc, ModuleName(sym, pc), Some(sym.symbols[pc]), if pc in sym.lines then Some(sym.lines[pc]) else None)
    else
      Frame(pc, ModuleName(sym, pc), None, None)
  }

  /**
   What a printed frame must show: its own module, the symbol exactly when the
   symbol lookup succeeds, and a file:line suffix exactly when both the symbol
   and the line lookup succeed.
   */
  ghost predicate FaithfulFrame(sym: Symbolizer, f: Frame) {
    && f.moduleName == ModuleName(sym, f.pc)
    && (f.symbol.Some? <==> f.pc in sym.symbols)
    && (f.symbol.Some? ==> f.symbol.value == sym.symbols[f.pc])
    && (f.source.Some? <==> f.symbol.Some? && f.pc in sym.lines)
    && (f.source.Some? ==> f.source.value == sym.lines[f.pc])
  }

  /** A step after which the walk goes on: a non-zero PC whose symbol lookup succeeds. */
  predicate Continues(sym: Symbolizer, s: Step) {
    s.UnwoundTo? && s.pc != 0 && s.pc in sym.symbols
  }

  /** The index of the first step that ends the walk (|steps| when none does). */
  function StopIndex(steps: seq<Step>, sym: Symbolizer): (k: nat)
    ensures k <= |steps|
    ensures forall i :: 0 <= i < k ==> Continues(sym, steps[i])
    ensures k < |steps| ==> !Continues(sym, steps[k])
  {
    if |steps| == 0 || !Continues(sym, steps[0]) then 0 else 1 + StopIndex(steps[1..], sym)
  }

  datatype WalkResult = WalkResult(frames: seq<Frame>, resolved: bool)

  /** The frames the `while (true)` loop prints and the `result` flag it returns. */
  function Walk(steps: seq<Step>, sym: Symbolizer): (w: WalkResult)
    ensures forall i :: 0 <= i < |w.frames| ==> w.frames[i].pc != 0 && FaithfulFrame(sym, w.frames[i])
    ensures |w.frames| <= |steps|
  {
    if |steps| == 0 then WalkResult([], true)
    else
      match steps[0]
      case UnwindFailed => WalkResult([], true)
      case UnwoundTo(pc) =>
        if pc == 0 then WalkResult([], true)
        else if pc !in sym.symbols then WalkResult([ResolveFrame(sym, pc)], false)
        else
          var rest := Walk(steps[1..], sym);
          WalkResult([ResolveFrame(sym, pc)] + rest.frames, rest.resolved)
  }

  /**
   The three stop conditions. With k the first step that does not continue:
   the frames are those of steps 0..k-1, all resolved, followed by the frame of
   step k exactly when its symbol lookup failed; the walk reports success
   exactly when it stopped on an unwinder failure, a zero PC or the end of the
   unwinder's answers.
   */
  lemma {:induction false} WalkStops(steps: seq<Step>, sym: Symbolizer)
    ensures var k, w := StopIndex(steps, sym), Walk(steps, sym);
            && |w.frames| == (if w.resolved then k else k + 1)
            && (forall i :: 0 <= i < k ==> w.frames[i].pc == steps[i].pc && w.frames[i].symbol.Some?)
            && (w.resolved <==> k == |steps| || steps[k].UnwindFailed? || steps[k].pc == 0)
            && (!w.resolved ==> w.frames[k].pc == steps[k].pc && w.frames[k].symbol.None?)
  {
    if |steps| > 0 && Continues(sym, steps[0]) {
      WalkStops(steps[1..], sym);
      var w, r := Walk(steps, sym), Walk(steps[1..], sym);
      assert w.frames == [ResolveFrame(sym, steps[0].pc)] + r.frames;
      forall i | 0 < i < StopIndex(steps, sym)
        ensures w.frames[i].pc == steps[i].pc && w.frames[i].symbol.Some?
      {
        assert w.frames[i] == r.frames[i - 1];
        assert steps[1..][i - 1] == steps[i];
      }
    }
  }

  /** Steps after the one that stopped the walk are never looked at. */
  lemma {:induction false} WalkIgnoresLaterSteps(steps: seq<Step>, tail: seq<Step>, sym: Symbolizer)
    requires StopIndex(steps, sym) < |steps|
    ensures var k := StopIndex(steps, sym);
            Walk(steps[..k + 1] + tail, sym) == Walk(steps, sym)
  {
    var k := StopIndex(steps, sym);
    var s := steps[..k + 1] + tail;
    assert s[0] == steps[0];
    if k > 0 {
      assert s[1..] == steps[1..][..k] + tail;
      assert steps[1..][..k] == steps[1..][..StopIndex(steps[1..], sym) + 1];
      WalkIgnoresLaterSteps(steps[1..], tail, sym);
    }
  }

  function FrameLines(frames: seq<Frame>): (lines: seq<Line>)
    ensures |lines| == |frames|
    ensures forall i :: 0 <= i < |frames| ==> lines[i] == FrameLine(frames[i])
  {
    if |frames| == 0 then [] else [FrameLine(frames[0])] + FrameLines(frames[1..])
  }

  /** The lines of one trace: its frames, then the closing blank lines. */
  function TraceLines(w: WalkResult): seq<Line> {
    FrameLines(w.frames) + [SectionBreak]
  }

  /** `BLI_windows_system_backtrace_run_trace` as a function of the unwinder's answers. */
  function RunTrace(steps: seq<Step>, sym: Symbolizer): (t: Trace)
    ensures t.resolved == Walk(steps, sym).resolved
    ensures t.events == Prints(TraceLines(Walk(steps, sym)))
  {
    var w := Walk(steps, sym);
    Trace(Prints(TraceLines(w)), w.resolved)
  }

  /** A failed unwind or a zero PC ends the walk from step i, resolved and with no frame. */
  lemma WalkFromStop(steps: seq<Step>, i: nat, sym: Symbolizer)
    requires i < |steps| && (steps[i].UnwindFailed? || steps[i].pc == 0)
    ensures Walk(steps[i..], sym) == WalkResult([], true)
  {
    assert steps[i..][0] == steps[i];
  }

  /** A PC without a symbol ends the walk from step i with that frame, unresolved. */
  lemma WalkFromUnresolved(steps: seq<Step>, i: nat, sym: Symbolizer)
    requires i < |steps| && steps[i].UnwoundTo? && steps[i].pc != 0 && steps[i].pc !in sym.symbols
    ensures Walk(steps[i..], sym) == WalkResult([ResolveFrame(sym, steps[i].pc)], false)
  {
    assert steps[i..][0] == steps[i];
  }

  /** A PC with a symbol is printed and the walk goes on from step i + 1. */
  lemma WalkFromNext(steps: seq<Step>, i: nat, sym: Symbolizer)
    requires i < |steps| && steps[i].UnwoundTo? && steps[i].pc != 0 && steps[i].pc in sym.symbols
    ensures var rest := Walk(steps[i + 1..], sym);
            Walk(steps[i..], sym) == WalkResult([ResolveFrame(sym, steps[i].pc)] + rest.frames, rest.resolved)
  {
    assert steps[i..][0] == steps[i] && steps[i..][1..] == steps[i + 1..];
  }

  /**
   The source's loop: call the unwinder until it fails, returns a zero PC or
   reaches a frame without a symbol, printing each frame on the way.
   */
  method RunTraceLoop(steps: seq<Step>, sym: Symbolizer) returns (lines: seq<Line>, result: bool)
    ensures lines == FrameLines(Walk(steps, sym).frames) + [SectionBreak]
    ensures result <==> Walk(steps, sym).resolved
  {
    ghost var w := Walk(steps, sym);
    result := true;
    var frames: seq<Frame> := [];
    var i := 0;
    while true
      invariant 0 <= i <= |steps|
      invariant result
      invariant w.frames == frames + Walk(steps[i..], sym).frames
      invariant w.resolved == Walk(steps[i..], sym).resolved
      decreases |steps| - i
    {
      if i == |steps| {
        assert Walk(steps[i..], sym) == WalkResult([], true) by {
          assert steps[i..] == [];
        }
        assert frames + [] == frames;
        break;
      }
      if steps[i].UnwindFailed? || steps[i].pc == 0 {
        WalkFromStop(steps, i, sym);
        assert frames + [] == frames;
        break;
      }
      var pc := steps[i].pc;
      var frame := ResolveFrame(sym, pc);
      if pc !in sym.symbols {
        WalkFromUnresolved(steps, i, sym);
        frames := frames + [frame];
        result := false;
        break;
      }
      WalkFromNext(steps, i, sym);
      ghost var rest := Walk(steps[i + 1..], sym);
      assert frames + ([frame] + rest.frames) == (frames + [frame]) + rest.frames;
      frames := frames + [frame];
      i := i + 1;
    }
    lines := FrameLines(frames) + [SectionBreak];
  }

  /** The context-capture outcome for a foreign thread: an error code or the unwinder's answers. */
  datatype Capture = CaptureFailed(error: nat) | Captured(steps: seq<Step>)

  /** The thread being sampled: the reporting thread itself, or another one by id. */
  datatype Target = CurrentThread(selfSteps: seq<Step>) | OtherThread(id: nat, capture: Capture)

  /** The suspend / query / resume bracket around a foreign thread's context capture. */
  function SuspendBracket(id: nat): seq<Event> {
    [Call(SuspendThread(id)), Call(GetThreadContext(id)), Call(ResumeThread(id))]
  }

  /** `bli_windows_system_backtrace_stack_thread` */
  function SampleThread(t: Target, sym: Symbolizer): Trace {
    match t
    case CurrentThread(steps) =>
      var r := RunTrace(steps, sym);
      Trace([Call(CaptureSelf)] + r.events, r.resolved)
    case OtherThread(id, capture) =>
      if capture.CaptureFailed? then
        Trace(SuspendBracket(id) + [Print(CannotGetThreadContext(capture.error))], false)
      else
        var r := RunTrace(capture.steps, sym);
        Trace(SuspendBracket(id) + r.events, r.resolved)
  }

  /** What sampling a foreign thread prints: the failure line, or the walk of the captured context. */
  function SampleLines(capture: Capture, sym: Symbolizer): seq<Line> {
    match capture
    case CaptureFailed(error) => [CannotGetThreadContext(error)]
    case Captured(steps) => TraceLines(Walk(steps, sym))
  }

  lemma TrackBracket(id: nat, h: Handles)
    requires h.openThread == Some(id) && h.suspended.None?
    ensures Track(SuspendBracket(id), h) == Some(h)
  {
    var b := SuspendBracket(id);
    var s := h.(suspended := Some(id));
    assert b[1..][1..][1..] == [];
    assert Track(b[1..][1..][1..], h) == Some(h);
    assert Track(b[1..][1..], s) == Some(h);
    assert Track(b[1..], s) == Some(h);
  }

  /** A trace prints only frame lines and its closing break, and calls nothing. */
  lemma TraceLinesWithin(steps: seq<Step>, sym: Symbolizer)
    ensures var ev := RunTrace(steps, sym).events;
            && LinesWithin(ev, {TracePart, BreakPart})
            && forall i :: 0 <= i < |ev| ==> ev[i].Print?
  {
    var w := Walk(steps, sym);
    var ev := RunTrace(steps, sym).events;
    forall i | 0 <= i < |ev|
      ensures ev[i].Print? && PartOf(ev[i].line) in {TracePart, BreakPart}
    {
      if i < |w.frames| {
        assert TraceLines(w)[i] == FrameLines(w.frames)[i];
      }
    }
  }

  lemma TrackTrace(steps: seq<Step>, sym: Symbolizer, h: Handles)
    ensures Track(RunTrace(steps, sym).events, h) == Some(h)
  {
    TrackPrints(TraceLines(Walk(steps, sym)), h);
  }

  /**
   A foreign thread is suspended exactly once and always resumed before
   anything else happens, whether or not its context was read; when the read
   fails the sample is a single failure line and no walk, and when it succeeds
   the sample prints the walk of the captured context and resolves as it does.
   */
  lemma ForeignSampleProtocol(id: nat, capture: Capture, sym: Symbolizer, snapshots: set<SnapshotKind>)
    ensures var ev := SampleThread(OtherThread(id, capture), sym).events;
            && ev[..3] == SuspendBracket(id)
            && (forall i :: 3 <= i < |ev| ==> ev[i].Print?)
            && Track(ev, Handles(Some(id), None, snapshots)) == Some(Handles(Some(id), None, snapshots))
            && LinesWithin(ev, {TracePart, BreakPart})
            && forall t :: t != id ==> NeverSuspends(ev, t)
    ensures capture.CaptureFailed? ==>
              && SampleThread(OtherThread(id, capture), sym).events
                   == SuspendBracket(id) + [Print(CannotGetThreadContext(capture.error))]
              && !SampleThread(OtherThread(id, capture), sym).resolved
    ensures capture.Captured? ==>
              && PrintedLines(SampleThread(OtherThread(id, capture), sym).events) == TraceLines(Walk(capture.steps, sym))
              && SampleThread(OtherThread(id, capture), sym).resolved == Walk(capture.steps, sym).resolved
    ensures PrintedLines(SampleThread(OtherThread(id, capture), sym).events) == SampleLines(capture, sym)
  {
    ForeignSamplePrinted(id, capture, sym);
    var h := Handles(Some(id), None, snapshots);
    var tail := if capture.CaptureFailed? then [Print(CannotGetThreadContext(capture.error))]
                else RunTrace(capture.steps, sym).events;
    assert SampleThread(OtherThread(id, capture), sym).events == SuspendBracket(id) + tail;
    if capture.CaptureFailed? {
      assert Track(tail, h) == Track(tail[1..], h);
    } else {
      TrackTrace(capture.steps, sym, h);
      TraceLinesWithin(capture.steps, sym);
    }
    BracketThenPrints(id, tail, h);
  }

  lemma ForeignSamplePrinted(id: nat, capture: Capture, sym: Symbolizer)
    ensures PrintedLines(SampleThread(OtherThread(id, capture), sym).events) == SampleLines(capture, sym)
  {
    var lines := SampleLines(capture, sym);
    assert SampleThread(OtherThread(id, capture), sym).events == SuspendBracket(id) + Prints(lines);
    PrintedLinesAppend(SuspendBracket(id), Prints(lines));
    PrintedLinesOfCalls(SuspendBracket(id));
    PrintedLinesOfPrints(lines);
  }

  /** The suspend bracket followed by printed lines only. */
  lemma BracketThenPrints(id: nat, tail: seq<Event>, h: Handles)
    requires h.openThread == Some(id) && h.suspended.None?
    requires forall i :: 0 <= i < |tail| ==> tail[i].Print?
    requires LinesWithin(tail, {TracePart, BreakPart}) && Track(tail, h) == Some(h)
    ensures var ev := SuspendBracket(id) + tail;
            && ev[..3] == SuspendBracket(id)
            && (forall i :: 3 <= i < |ev| ==> ev[i].Print?)
            && Track(ev, h) == Some(h)
            && LinesWithin(ev, {TracePart, BreakPart})
            && forall t :: t != id ==> NeverSuspends(ev, t)
  {
    var b := SuspendBracket(id);
    var ev := b + tail;
    TrackBracket(id, h);
    TrackAppend(b, tail, h);
    assert ev[..3] == b;
    forall i | 3 <= i < |ev|
      ensures ev[i] == tail[i - 3]
    {
    }
    forall t | t != id
      ensures NeverSuspends(ev, t)
    {
      forall i | 0 <= i < |ev| && IsSuspend(ev[i])
        ensures ev[i].action.id != t
      {
        assert i < 3 && ev[i] == b[i];
      }
    }
  }

  /** The reporting thread captures its own context and is never suspended. */
  lemma SelfSampleProtocol(steps: seq<Step>, sym: Symbolizer, h: Handles)
    requires h.suspended.None?
    ensures var ev := SampleThread(CurrentThread(steps), sym).events;
            && ev[0] == Call(CaptureSelf)
            && (forall i :: 1 <= i < |ev| ==> ev[i].Print?)
            && Track(ev, h) == Some(h)
    ensures SampleThread(CurrentThread(steps), sym).resolved == Walk(steps, sym).resolved
    ensures PrintedLines(SampleThread(CurrentThread(steps), sym).events) == TraceLines(Walk(steps, sym))
  {
    TrackAppend([Call(CaptureSelf)], RunTrace(steps, sym).events, h);
    TrackTrace(steps, sym, h);
    PrintedLinesCons(Call(CaptureSelf), RunTrace(steps, sym).events);
    PrintedLinesOfPrints(TraceLines(Walk(steps, sym)));
  }
}

=== FILE: symbol_loading.dfy ===
/**
 Loading the richer debug metadata before a report (`bli_load_symbols` and
 `bli_private_symbols_loaded`). The file-system and symbol-engine calls are
 oracles: whether private symbols are already loaded, and whether a
 `blender.pdb` sits beside the executable and loads.
 */
module SymbolLoading {
  import opened Options
  import opened CrashEvents

  /**
   A `blender.pdb` found beside the executable: its size in bytes and whether
   `SymLoadModule` accepts it. Only the low 32 bits of the size
   (`nFileSizeLow`) are passed on.
   */
  datatype PdbFile = PdbFile(size: nat, loads: bool)

  /**
   `privateSymbolsLoaded` is `GlobalSymbols` of the executable's module info
   (false when that query fails); `pdbBesideExecutable` is present when the
   executable's path, the pdb's existence, the module handle and the file
   attributes could all be obtained.
   */
  datatype SymbolFiles = SymbolFiles(privateSymbolsLoaded: bool, pdbBesideExecutable: Option<PdbFile>)

  /**
   Already-loaded private symbols are left alone; otherwise the default
   symbols are unloaded only to load the co-located pdb in their place, and a
   failed load is only logged. Nothing is written to the report and no
   thread or snapshot handle is touched.
   */
  function LoadSymbols(f: SymbolFiles): (ev: seq<Event>)
    ensures f.privateSymbolsLoaded ==> ev == []
    ensures forall i :: 0 <= i < |ev| ==>
              ev[i].Call? && !ThreadCall(ev[i]) && !ev[i].action.OpenSnapshot? && !ev[i].action.CloseSnapshot?
    ensures Call(UnloadDefaultSymbols) in ev <==> !f.privateSymbolsLoaded && f.pdbBesideExecutable.Some?
    ensures Call(UnloadDefaultSymbols) in ev ==>
              |ev| >= 2 && ev[0] == Call(UnloadDefaultSymbols)
              && ev[1] == Call(LoadPdb(f.pdbBesideExecutable.value.size % 0x1_0000_0000))
    ensures Call(LogSymbolLoadError) in ev <==> Call(UnloadDefaultSymbols) in ev && !f.pdbBesideExecutable.value.loads
  {
    if f.privateSymbolsLoaded then []
    else
      match f.pdbBesideExecutable
      case None => []
      case Some(pdb) =>
        [Call(UnloadDefaultSymbols), Call(LoadPdb(pdb.size % 0x1_0000_0000))]
        + (if pdb.loads then [] else [Call(LogSymbolLoadError)])
  }
}

=== FILE: win32_types.dfy ===
/**
 Fixed-width quantities of the Win32 API that the crash report reads.
 Addresses are kept as unbounded naturals: the report only compares them
 with zero and prints them, so their width never matters.
 */
module Win32Types {

  /** An unsigned 32-bit `DWORD`. */
  newtype Dword = x: int | 0 <= x < 0x1_0000_0000

  /** `MAX_PATH`, the size of every character buffer the report fills. */
  const MaxPath: nat := 260

  /** `(w >> 16) & 0xffff`: for an unsigned 32-bit word the shift is a division by 2^16. */
  function HighWord(w: Dword): (r: nat)
    ensures r < 0x10000
  {
    (w as int / 0x10000) % 0x10000
  }

  /** `(w >> 0) & 0xffff` */
  function LowWord(w: Dword): (r: nat)
    ensures r < 0x10000
  {
    w as int % 0x10000
  }

  /** Packs two 16-bit halves into one word, the inverse of the two extractions. */
  function MakeDword(high: nat, low: nat): (w: Dword)
    requires high < 0x10000 && low < 0x10000
  {
    (high * 0x10000 + low) as Dword
  }

  /** The two extracted halves lose nothing: they reassemble the word. */
  lemma WordsReassemble(w: Dword)
    ensures MakeDword(HighWord(w), LowWord(w)) == w
  {
  }
}
